=== FILE: README.md ===
# Relay timer scheduler — a Dafny model

This project models the core of an Arduino weekly relay timer. The timer has three parts.

- **Schedule store (`Programador`).** It holds ten rules (`Programacao`). Each rule has seven day flags (Sunday to Saturday), a start and an end time as hour and minute bytes, and an enabled flag. The store also keeps the last computed relay state. Its `atualizar` call ORs a per-rule window test over all slots. The window is inclusive at both ends and may run past midnight. The call reports whether the relay state changed.
- **EEPROM codec.** It saves and loads a 121-byte image: the magic byte `0x42` at address 0, then one 12-byte record per slot.
- **Command protocol.** Bytes from the serial line collect in a buffer until `;` arrives. The command processor then:
  - trims the command;
  - drops one leading `#`;
  - dispatches on `pg` (store a rule), `rm` (remove), `dt` (disable), `at` (enable), `hr` (set the clock) and `st` (status listing).

  Every command that changes the store is followed by a save.

## Modules

| file | module | what it holds |
|---|---|---|
| `arduino_text.dfy` | `ArduinoText` | The subset of Arduino `String` the core uses: `trim`, `indexOf`, `startsWith`, and `toInt` read as `atol`. Also reference definitions `Split`/`Join` and `Decimal`. |
| `programador.dfy` | `Schedule` | The `Programacao` datatype and the window test. The `Programador` class has a fixed 10-element array and the `estadoAtual` field. |
| `persistence.dfy` | `Persistence` | The EEPROM image as a specification function. Save and load are loops over an `array<uint8>`. |
| `command_parsing.dfy` | `CommandParsing` | `parseProgramacao` as a specification function plus the method with the code's loops. The field splitter and the clamp. |
| `commands.dfy` | `Commands` | `processaComando`: the interpreter as a function of the command and the slots (`Interpret`), and the method that runs it against the store and the EEPROM. Also the status listing. |
| `command_properties.dfy` | `CommandProperties` | Whole-command properties: `pg`/`rm`/`dt`/`at` on well-formed input, optional `#`, padding, idempotence, `hr` field order. |
| `serial.dfy` | `Serial` | `processaByteSerial` over a `CommandBuffer` object, and the framing of a byte stream proved equal to splitting at `;`. |
| `findings.dfy` | `Findings` | The 16-bit `int` truncations as written, with the inputs that expose them. |

On these points the model follows the code:

- Out-of-range hours and minutes are clamped, not rejected.
- The receive buffer has no length cap and no byte filter.
- There is no `up` command.
- Loading returns nothing; a wrong magic byte simply leaves the store as it was.
- The status listing calls a slot "Vazio" when its four time fields are zero, whatever its days. The scheduler's own emptiness test also needs every day flag off.

## Model

| member | source | states |
|---|---|---|
| Schedule.SlotVazio | Programador.cpp:48-56 | a slot is empty (its four times and seven day flags all zero) exactly when it equals the canonical empty rule once its enabled flag is ignored |
| Schedule.ProgAtivaAgora | Programador.cpp:59-62 | a rule that is empty, disabled, or off for the weekday is never active |
| Schedule.SameDayWindow | Programador.cpp:64-70 | when start <= end, an eligible rule is active iff start <= now <= end, both ends inclusive |
| Schedule.CrossMidnightWindow | Programador.cpp:71-74 | when start > end, an eligible rule is active iff now >= start or now <= end |
| Schedule.InWindow | Programador.cpp:64-74 | both the start and the end minute belong to the window; a window whose start equals its end holds only that minute; InWindowIsForwardDistance gives the full reading |
| Schedule.InWindowIsForwardDistance | Programador.cpp:64-74 | both window cases are one rule: the distance from start forward to now, mod 1440, is at most the distance from start to end |
| Schedule.MidnightOnlyRule | Programador.cpp:59-75 | a non-empty enabled rule with times 00:00-00:00 is active only at minute 0 |
| Schedule.AnyActive | Programador.cpp:77-84 | the OR of the window test over the slots (Atualizar computes it with the code's loop); if every slot is empty or disabled, nothing is active |
| Schedule.Programador.constructor | Programador.cpp:3-11 | all ten slots are the empty rule and the relay state is off |
| Schedule.Programador.SetProgramacao | Programador.cpp:13-17 | an in-range index replaces that slot wholesale, enabled flag included; other slots are unchanged; an out-of-range index changes nothing |
| Schedule.Programador.GetProgramacao | Programador.cpp:19-29 | an in-range index gives the stored rule; otherwise an empty, disabled rule |
| Schedule.Programador.Ativar | Programador.cpp:31-34 | sets only the enabled flag of the slot; days and times are kept; out of range changes nothing |
| Schedule.Programador.Desativar | Programador.cpp:36-39 | clears only the enabled flag of the slot; days and times are kept; out of range changes nothing |
| Schedule.Programador.Remover | Programador.cpp:41-46 | resets the slot to the empty rule, which then counts as empty; other slots are unchanged; out of range changes nothing |
| Schedule.Programador.Atualizar | Programador.cpp:77-88 | the new relay state is the OR of the window test over all slots; the result is true exactly when the state changed, so a second call at the same time returns false |
| Schedule.Programador.GetEstadoAtual | Programador.cpp:90-92 | returns the state the last update computed |
| Persistence.FlagByte | Commands.cpp:59-61 | a flag is written as 1 or 0 |
| Persistence.DayBytes | Commands.cpp:59 | seven bytes, byte d being day flag d's 0/1 |
| Persistence.EncodeSlots | Commands.cpp:56-67 | the first n slots give n records of 12 bytes each, in slot order |
| Persistence.Image | Commands.cpp:4-19 | the image is 1 + 10 * 12 = 121 bytes |
| Persistence.EncodeSlotsLayout | Commands.cpp:6-13 | the record of slot i sits at offset 12 * i of the encoded slots |
| Persistence.ImageLayout | Commands.cpp:4-19 | magic 0x42 at address 0, and byte k of slot i at address 1 + 12 * i + k |
| Persistence.SlotRecord | Commands.cpp:58-66 | a slot is written as 12 bytes whose first eight, the day flags and the enabled flag, are 0 or 1 |
| Persistence.DecodeSlot | Commands.cpp:79-85 | a record reads as a slot that writes back as the same record up to the flag bytes, which come back as 0/1 with the same truth value |
| Persistence.DecodeSlotRecord | Commands.cpp:79-85 | a record reads back as the rule it was written from |
| Persistence.DecodeImageRoundTrip | Commands.cpp:53-89 | saving then loading gives back all ten slots exactly |
| Persistence.DecodeImage | Commands.cpp:77-87 | the load rebuilds exactly ten slots |
| Persistence.WriteSlot | Commands.cpp:59-66 | writes one slot's 12 bytes at the current address and no other byte |
| Persistence.SalvarProgramacoesEeprom | Commands.cpp:53-69 | the first 121 EEPROM bytes become the image of the store; the bytes after it are untouched |
| Persistence.DecodePrefix | Commands.cpp:77-87 | the load reads only the first 121 bytes: what follows the image does not change the slots it rebuilds |
| Persistence.CarregarProgramacoesEeprom | Commands.cpp:71-89 | a wrong magic byte leaves the store unchanged; otherwise every slot is set from its record in the first 121 bytes, and the relay state is not touched |
| Persistence.SaveThenLoad | Commands.cpp:53-89 | saving one store and then loading into another leaves the second holding exactly the slots of the first |
| ArduinoText.Trim | Commands.cpp:25-26 | the result has no white space at either end and is no longer than the input |
| ArduinoText.TrimPadded | Commands.cpp:134-135 | trimming white-space padding off a text with non-space ends gives back that text |
| ArduinoText.StartsWithRest | Commands.cpp:142-161 | a command starts with a prefix exactly when it is that prefix followed by the rest the branch reads with `substring(2)` |
| ArduinoText.IndexOf | Commands.cpp:28 | the result is -1 or a position holding the character |
| ArduinoText.IndexOfFirst | Commands.cpp:28 | -1 exactly when the character is absent; otherwise no earlier position holds it |
| ArduinoText.ToInt | Commands.cpp:41 | white space is skipped, and text not starting with a sign or digit reads as 0; a digit start reads non-negative |
| ArduinoText.ToIntUnsigned | Commands.cpp:41 | after leading white space, a run of digits (leading zeros included) followed by any non-digit tail reads as the digits' value |
| ArduinoText.ToIntSigned | Commands.cpp:41 | after leading white space, a `+` or `-` and the digit run after it (possibly empty) read as the signed value, whatever follows |
| ArduinoText.ToIntDigits | Commands.cpp:41 | a text made only of digits, `00` and `05` included, reads as their value |
| ArduinoText.ToIntDecimal | Commands.cpp:41 | a decimal numeral reads back as its number |
| ArduinoText.JoinSplit | Commands.cpp:37-44 | joining the comma-split pieces gives back the text |
| CommandParsing.FieldTexts | Commands.cpp:37-44 | when the field loop succeeds it yields exactly n texts; FieldTextsAreSplitPieces reads them against Split |
| CommandParsing.FieldTextsAreSplitPieces | Commands.cpp:37-44 | the field loop succeeds exactly when the text has at least n comma-separated pieces, and then yields the first n pieces |
| CommandParsing.SplitIntFields | Commands.cpp:37-44 | the loop fails exactly when the field texts do not exist (a comma missing before the last field); otherwise it gives `toInt` of each field text, in order |
| CommandParsing.ToInts | Commands.cpp:41 | element i is `toInt` of text i |
| CommandParsing.SplitAtFirstComma | Commands.cpp:28-29 | the comma-split pieces of a text are the text before its first comma, then the pieces after that comma |
| CommandParsing.Clamp | Commands.cpp:45-48 | `constrain`: the result is in [lo, hi], equal to x inside, lo below and hi above |
| CommandParsing.ParseRule | Commands.cpp:24-51 | a parsed rule has hours <= 23 and minutes <= 59, and keeps the enabled flag it was given |
| CommandParsing.ParseRuleSplit | Commands.cpp:28-48 | parsing succeeds exactly when the first comma of the trimmed text is at position 7 and at least four comma-separated fields follow. Day d is on iff character d is '1'. Each time is `toInt` of its field, clamped |
| CommandParsing.ParseProgramacao | Commands.cpp:24-51 | the method with the code's loops computes what ParseRule says |
| CommandParsing.DayString | Commands.cpp:30-32 | seven characters, no comma |
| CommandParsing.FormatRule | Commands.cpp:24 | a payload text that starts and ends with a digit |
| CommandParsing.Clamped | Commands.cpp:45-48 | times brought into range; a rule already in range is unchanged |
| CommandParsing.ParseRuleText | Commands.cpp:24-51 | a seven-flag day string, a comma and four comma-free fields parse to the rule with clamped times and the caller's enabled flag |
| CommandParsing.ParseFormatRule | Commands.cpp:24-51 | parsing the payload written for a rule gives back that rule with times clamped |
| Commands.OpName | Commands.cpp:160-184 | each slot operation has a two-letter command name |
| Commands.ApplyOp | Programador.cpp:31-46 | remove leaves an empty, disabled slot; enable and disable change only the flag |
| Commands.Report | Commands.cpp:164-190 | each slot operation reports a store-changing outcome naming the slot |
| Commands.SlotIndex | Commands.cpp:145-146 | the index `toInt - 1` names a slot exactly when the number read is 1..10 |
| Commands.SlotIndexOfDecimal | Commands.cpp:145-146 | command number n names slot n - 1, accepted exactly when n is 1..10 |
| Commands.TimesZero | Commands.cpp:220 | the listing's emptiness test is the scheduler's with the day flags ignored, so every slot the scheduler calls empty is listed as empty |
| Commands.StatusOf | Commands.cpp:219-227 | a slot's line is "Vazio" exactly when its four times are zero; otherwise it shows the slot with the scheduler's verdict for now |
| Commands.StatusReport | Commands.cpp:217-229 | one line per slot |
| Commands.EstaAtivaAgoraLocal | Commands.cpp:117-130 | the listing's own test (enabled, day on, time in the window) agrees with the scheduler's on every slot whose times are not all zero |
| Commands.StatusReportAgrees | Commands.cpp:218-226 | line i is "Vazio" exactly when slot i's times are all zero; otherwise it shows the slot and the scheduler's verdict |
| Commands.StatusHidesMidnightRule | Commands.cpp:220 | an enabled 00:00-00:00 rule is listed as "Vazio" at midnight, although the scheduler counts it active then |
| Commands.StatusListing | Commands.cpp:215-231 | the listing loop produces StatusReport of the store |
| Commands.PgStore | Commands.cpp:145-151 | after the comma: a number naming no slot is refused, a payload the parser refuses is refused, both with the slots unchanged; otherwise the parsed rule, enabled, replaces exactly that slot |
| Commands.InterpretPg | Commands.cpp:142-157 | `pg` stores an enabled, clamped rule in one accepted slot; every error leaves the slots unchanged |
| Commands.InterpretSlotOp | Commands.cpp:160-193 | `rm`/`dt`/`at` apply their operation to the named slot alone; a bad index changes nothing |
| Commands.InterpretHr | Commands.cpp:196-212 | `hr` either fails on format or sets the clock with seconds 0 |
| Commands.Dispatch | Commands.cpp:142-233 | only a store-changing outcome changes the slots, and then only the slot it names, as that command does to it; `st` lists the current slots |
| Commands.FromTrimmed | Commands.cpp:136-139 | the command is ignored exactly when the trimmed text is empty |
| Commands.Interpret | Commands.cpp:133-139 | ignored exactly for all-white-space text, with slots unchanged; otherwise the dispatch of the trimmed text without its leading '#' |
| Commands.RunPg | Commands.cpp:142-151 | runs the `pg` branch up to the store update: a command without a comma is refused, otherwise StorePg runs on the two parts; the slots and the outcome are the ones InterpretPg gives |
| Commands.StorePg | Commands.cpp:145-151 | checks the slot number, parses the payload and stores the rule, leaving the slots and the outcome PgStore gives |
| Commands.RunSlotOp | Commands.cpp:160-187 | runs the `rm`/`dt`/`at` branch up to the store update, leaving the slots and the outcome InterpretSlotOp gives |
| Commands.RunHr | Commands.cpp:196-212 | the five-field loop computes InterpretHr |
| Commands.DispatchCommand | Commands.cpp:141-233 | the prefix chain ends as Dispatch says; a store-changing branch saves, so the first 121 EEPROM bytes hold the new image and the rest are untouched; any other outcome leaves the EEPROM unchanged |
| Commands.ProcessaComando | Commands.cpp:133-234 | the store ends as Interpret says. After a store-changing command the first 121 EEPROM bytes hold the new image; otherwise the EEPROM is unchanged |
| CommandProperties.PgBranch | Commands.cpp:143-151 | the `pg` branch on `pg<n>,<payload>` for any payload: a number outside 1..10 is refused, a payload that does not parse is refused, otherwise the parsed rule, enabled, goes to slot n - 1 |
| CommandProperties.PgCommand | Commands.cpp:142-157 | the whole `pg<n>,ddddddd,HH,MM,HH,MM` command, with any comma-free time texts (leading zeros included) reading as p's times, the last one empty or not ending in white space, stores p clamped and enabled in slot n - 1 when n is 1..10; otherwise it reports a bad index and changes nothing |
| CommandProperties.PgFormattedCommand | Commands.cpp:142-157 | the same for the payload written by FormatRule |
| CommandProperties.SlotOpBranch | Commands.cpp:160-193 | the `rm`/`dt`/`at` branch on number n acts on slot n - 1 exactly when n is 1..10 |
| CommandProperties.SlotOpCommand | Commands.cpp:160-193 | the whole `rm<n>`/`dt<n>`/`at<n>` command acts on slot n - 1 alone when n is 1..10; otherwise it reports a bad index and changes nothing |
| CommandProperties.DispatchHr | Commands.cpp:196-212 | a command starting with `hr` reaches the clock branch and leaves the slots alone |
| CommandProperties.HrCommand | Commands.cpp:133-212 | a whole `hr` command fails exactly when fewer than five comma-separated fields follow; otherwise it sets year, month, day, hour, minute from fields 5, 4, 3, 1, 2 with seconds 0; the slots never change |
| CommandProperties.DispatchSt | Commands.cpp:215-231 | a command starting with `st` produces the status listing of the current slots and changes nothing |
| CommandProperties.StCommand | Commands.cpp:133-231 | `st` and `#st`, with any white-space padding, list every slot and change nothing |
| CommandProperties.DispatchUnknown | Commands.cpp:233 | a command starting with none of `pg`, `rm`, `dt`, `at`, `hr`, `st` is refused as unknown and changes nothing |
| Commands.PgFormatError | Commands.cpp:143-144 | `pg` without a comma is a format error and changes nothing |
| Commands.PgWithComma | Commands.cpp:143-147 | `pg` with a comma takes the text from after `pg` up to the first comma as the slot number and everything after that comma as the payload |
| CommandProperties.HashIsOptional | Commands.cpp:138-139 | for a command that starts with neither white space nor '#' and has no white space at its end, putting one '#' in front does not change what it does (after the '#' the code does not trim again, so `# st` differs from `st`) |
| CommandProperties.PaddingIgnored | Commands.cpp:134-135 | white space around a command does not change what it does |
| CommandProperties.DispatchIdempotent | Commands.cpp:142-233 | dispatching a command again on the slots it produced repeats its outcome and changes nothing more |
| CommandProperties.InterpretIdempotent | Commands.cpp:133-234 | running a command twice has the effect and report of running it once |
| CommandProperties.HrReadsFiveFields | Commands.cpp:196-209 | `hr` fails exactly when fewer than five comma-separated fields follow; otherwise it sets year, month, day, hour, minute from fields 5, 4, 3, 1, 2 |
| Serial.Frames | Commands.cpp:237-245 | the number of completed commands equals the number of ';' in the stream |
| Serial.FramesAreSplit | Commands.cpp:237-245 | feeding a stream to a buffer without ';' dispatches every piece of buffer + stream split at ';' except the last, which stays buffered |
| Serial.NoTerminatorAccumulates | Commands.cpp:242-243 | without ';' nothing is dispatched and every byte is appended, unfiltered and uncapped |
| Serial.TerminatorFlushes | Commands.cpp:238-241 | ';' hands over the whole buffer and empties it |
| Serial.OtherAppends | Commands.cpp:242-243 | any other byte is appended and completes nothing |
| Serial.CommandBuffer.constructor | Commands.cpp:21 | the buffer starts empty |
| Serial.CommandBuffer.ProcessaByteSerial | Commands.cpp:237-245 | on ';' runs the buffered command as ProcessaComando does and empties the buffer; any other byte is appended and leaves the store and EEPROM unchanged |
| Findings.Int16 | Commands.cpp:145 | a 16-bit `int` keeps the value modulo 65536, in -32768..32767 |
| Findings.SlotIndexAsWritten | Commands.cpp:161 | the index as the code stores it agrees with the unbounded reading for numbers up to 32768 |
| Findings.SlotIndexWraps | Commands.cpp:161-162 | `rm65537` names slot 1 as written, although 65537 names no slot |
| Findings.FieldValueAsWritten | Commands.cpp:41-45 | a time field as the code stores then clamps it agrees with the unbounded reading within 16 bits |
| Findings.FieldValueWraps | Commands.cpp:41-45 | an hour field `65536` becomes hour 0 as written, where clamping means 23 |

## Left out

- Serial output text. Each printed message (OK or ERR, the status layout of `imprimirProgramacaoSlot`) becomes an `Outcome` tag. The `st` listing becomes a sequence of per-slot lines.
- RTClib. `rtc.now()` is a `Moment` parameter (weekday, hour, minute). `rtc.adjust(DateTime(...))` becomes a `ClockAdjusted` outcome carrying the six values as read (see Commands.InterpretHr below for their width). How `DateTime` treats out-of-range values is not modelled.
- EEPROM hardware. The EEPROM is an `array<uint8>`; write timing, wear and power loss are not modelled.
- Arduino `String` storage. Allocation failure in `trim`, `substring` or `+=` is not modelled. Nor are NUL bytes, which `indexOf` (a `strchr`) would stop at.
- ArduinoText.ToInt: `toInt` returns a 32-bit `long`, and overflow of numbers beyond it is not modelled; the value is unbounded.
- Commands.SlotIndex: the corrected, unbounded reading of the 16-bit `int` index; the truncation as written is in Findings.
- Commands.InterpretHr: the five `hr` fields are carried unbounded into the `ClockSetting`, where the code first stores each in a 16-bit `int` (`int parts[5]`) and `DateTime` then narrows them again to its own field widths; a field outside -32768..32767 is set differently on the board.
- CommandParsing.ParseRule: the time fields are read unbounded before clamping; the 16-bit truncation as written is in Findings.
- `parseProgramacao` writes the day flags into its output before the time fields are checked. A failed parse can therefore leave them changed in the caller's record. The only caller discards that record, so the model returns `None` instead.
- Commands.h holds only prototypes; it is not part of this model.
- The main sketch's loop that reads bytes and calls `processaByteSerial` and `atualizar` is not part of this model.

## Findings

| source | as written | input that shows it | evidently intended | confidence | as-written member | corrected member |
|---|---|---|---|---|---|---|
| Commands.cpp:145,161,173,185 | `int idx = ....toInt() - 1` stores a `long` in a 16-bit AVR `int`, so the index wraps modulo 65536 | `#rm65537;` gives idx 0 and removes slot 1 | any number outside 1..10 is refused with "ERR: idx fora" | not executed; holds where `int` is 16 bits (AVR) | Findings.SlotIndexWraps | Commands.SlotIndex |
| Commands.cpp:41,45-48 | `parts[i] = f.toInt()` truncates to 16 bits before `constrain` | payload `1111111,65536,0,1,0` stores start hour 0 | a value above the range is clamped to its top (hour 23) | not executed; holds where `int` is 16 bits (AVR) | Findings.FieldValueWraps | CommandParsing.ParseRuleSplit |

=== FILE: arduino_text.dfy ===
/**
 * The few Arduino `String` operations the command code relies on: `trim`,
 * `indexOf`, `startsWith` and `toInt` (which is `atol` from the C library),
 * plus two reference definitions used to state what the command parser does:
 * `Split`/`Join` on a separator character and `Decimal`, the base-10
 * rendering of a natural number.
 *
 * `substring` needs no function of its own: every call in the command code
 * stays inside the string, where it is the Dafny slice `s[i..j]`.
 */
module ArduinoText {

  /** `isspace` of the C library: blank, tab, newline, vertical tab, form feed, carriage return. */
  predicate IsSpace(c: char) {
    c == ' ' || 9 <= c as int <= 13
  }

  predicate IsDigit(c: char) {
    '0' <= c <= '9'
  }

  /** `c` occurs nowhere in `s`. */
  predicate Lacks(s: string, c: char) {
    forall i :: 0 <= i < |s| ==> s[i] != c
  }

  predicate AllDigits(s: string) {
    forall i :: 0 <= i < |s| ==> IsDigit(s[i])
  }

  function DigitValue(c: char): (v: nat)
    requires IsDigit(c)
    ensures v < 10
  {
    c as int - '0' as int
  }

  function DigitChar(d: nat): (c: char)
    requires d < 10
    ensures IsDigit(c) && DigitValue(c) == d
  {
    ('0' as int + d) as char
  }

  /** The first position at or after `i` that does not hold white space (`|s|` if none). */
  function SkipSpaces(s: string, i: nat): (j: nat)
    requires i <= |s|
    ensures i <= j <= |s|
    ensures j == |s| || !IsSpace(s[j])
    ensures forall k :: i <= k < j ==> IsSpace(s[k])
    decreases |s| - i
  {
    if i < |s| && IsSpace(s[i]) then SkipSpaces(s, i + 1) else i
  }

  /**
   * The end of `s[lo..n]` once trailing white space is dropped, never going
   * below `lo`.
   */
  function SpacesEnd(s: string, lo: nat, n: nat): (m: nat)
    requires lo <= n <= |s|
    ensures lo <= m <= n
    ensures m == lo || !IsSpace(s[m - 1])
    ensures forall k :: m <= k < n ==> IsSpace(s[k])
    decreases n
  {
    if n > lo && IsSpace(s[n - 1]) then SpacesEnd(s, lo, n - 1) else n
  }

  /**
   * `String::trim`: the begin pointer skips leading white space, the end
   * pointer walks back over trailing white space but not below the begin
   * pointer, and what lies between is kept as it was.
   */
  function Trim(s: string): (r: string)
    ensures |r| <= |s|
    ensures r == [] || (!IsSpace(r[0]) && !IsSpace(r[|r| - 1]))
  {
    var b := SkipSpaces(s, 0);
    s[b..SpacesEnd(s, b, |s|)]
  }

  /** A string that starts and ends with a non-space is left alone by `Trim`. */
  lemma TrimUnchanged(s: string)
    requires s != [] && !IsSpace(s[0]) && !IsSpace(s[|s| - 1])
    ensures Trim(s) == s
  {
  }

  /** Skipping from `i` stops at `j` when `s[i..j]` is all white space and `s[j]` is not. */
  lemma {:induction false} SkipSpacesTo(s: string, i: nat, j: nat)
    requires i <= j <= |s|
    requires forall k :: i <= k < j ==> IsSpace(s[k])
    requires j == |s| || !IsSpace(s[j])
    ensures SkipSpaces(s, i) == j
    decreases j - i
  {
    if i < j {
      SkipSpacesTo(s, i + 1, j);
    }
  }

  /** Walking back from `n` stops at `m` when `s[m..n]` is all white space and `s[m - 1]` is not. */
  lemma {:induction false} SpacesEndTo(s: string, lo: nat, m: nat, n: nat)
    requires lo <= m <= n <= |s|
    requires forall k :: m <= k < n ==> IsSpace(s[k])
    requires m == lo || !IsSpace(s[m - 1])
    ensures SpacesEnd(s, lo, n) == m
    decreases n - m
  {
    if m < n {
      SpacesEndTo(s, lo, m, n - 1);
    }
  }

  /** `trim` removes exactly the white space around a text that starts and ends with a non-space. */
  lemma TrimPadded(pre: string, c: string, post: string)
    requires forall i :: 0 <= i < |pre| ==> IsSpace(pre[i])
    requires forall i :: 0 <= i < |post| ==> IsSpace(post[i])
    requires c == [] || (!IsSpace(c[0]) && !IsSpace(c[|c| - 1]))
    ensures Trim(pre + c + post) == c
  {
    var s := pre + c + post;
    var b := |pre| + |c|;
    if c == [] {
      SkipSpacesTo(s, 0, |s|);
    } else {
      assert s[|pre|] == c[0];
      SkipSpacesTo(s, 0, |pre|);
      assert s[b - 1] == c[|c| - 1];
      SpacesEndTo(s, |pre|, b, |s|);
      assert s[|pre|..b] == c;
    }
  }

  /** The first position at or after `i` holding `c`, or -1. */
  function IndexFrom(s: string, c: char, i: nat): (r: int)
    requires i <= |s|
    ensures r == -1 || (i <= r < |s| && s[r] == c)
    decreases |s| - i
  {
    if i == |s| then -1 else if s[i] == c then i else IndexFrom(s, c, i + 1)
  }

  /** `String::indexOf(c)`: the search from position 0. */
  function IndexOf(s: string, c: char): (r: int)
    ensures -1 <= r < |s|
    ensures r >= 0 ==> s[r] == c
  {
    IndexFrom(s, c, 0)
  }

  /** The search from `i` finds the first `c` at or after `i`, and -1 exactly when there is none. */
  lemma {:induction false} IndexFromFirst(s: string, c: char, i: nat)
    requires i <= |s|
    ensures IndexFrom(s, c, i) == -1 <==> forall k :: i <= k < |s| ==> s[k] != c
    ensures IndexFrom(s, c, i) >= 0 ==> forall k :: i <= k < IndexFrom(s, c, i) ==> s[k] != c
    decreases |s| - i
  {
    if i < |s| && s[i] != c {
      IndexFromFirst(s, c, i + 1);
    }
  }

  /** `indexOf` finds the first occurrence: -1 exactly when `c` does not occur, and no `c` before the position. */
  lemma IndexOfFirst(s: string, c: char)
    ensures IndexOf(s, c) == -1 <==> Lacks(s, c)
    ensures IndexOf(s, c) >= 0 ==> Lacks(s[..IndexOf(s, c)], c)
  {
    IndexFromFirst(s, c, 0);
  }

  /** The first separator of `x + [c] + y` is the one after `x` when `x` holds none. */
  lemma IndexOfAfter(x: string, c: char, y: string)
    requires Lacks(x, c)
    ensures IndexOf(x + [c] + y, c) == |x|
  {
    var s := x + [c] + y;
    assert forall k :: 0 <= k < |x| ==> s[k] == x[k];
    IndexFromFirst(s, c, 0);
    assert s[|x|] == c;
  }

  /** `String::startsWith`. */
  predicate StartsWith(s: string, prefix: string) {
    |prefix| <= |s| && s[..|prefix|] == prefix
  }

  /** A text starts with a prefix exactly when it is that prefix followed by the rest, `substring(|prefix|)`. */
  lemma StartsWithRest(s: string, prefix: string)
    ensures StartsWith(s, prefix) <==> |prefix| <= |s| && s == prefix + s[|prefix|..]
  {
    if |prefix| <= |s| && s == prefix + s[|prefix|..] {
      assert s[..|prefix|] == (prefix + s[|prefix|..])[..|prefix|];
    }
  }

  /** The end of the run of decimal digits that starts at `i`. */
  function DigitsEnd(s: string, i: nat): (e: nat)
    requires i <= |s|
    ensures i <= e <= |s|
    ensures e == |s| || !IsDigit(s[e])
    ensures forall k :: i <= k < e ==> IsDigit(s[k])
    decreases |s| - i
  {
    if i < |s| && IsDigit(s[i]) then DigitsEnd(s, i + 1) else i
  }

  /** The value of a string of decimal digits, most significant first. */
  function DigitsValue(ds: string): nat
    requires AllDigits(ds)
  {
    if ds == [] then 0 else 10 * DigitsValue(ds[..|ds| - 1]) + DigitValue(ds[|ds| - 1])
  }

  /**
   * `String::toInt`, i.e. `atol`: skips leading white space, takes one
   * optional sign and then the longest run of digits; no digits gives 0.
   */
  function ToInt(s: string): (v: int)
    ensures var i := SkipSpaces(s, 0);
      (i == |s| || (s[i] != '-' && s[i] != '+' && !IsDigit(s[i]))) ==> v == 0
    ensures var i := SkipSpaces(s, 0); i < |s| && IsDigit(s[i]) ==> v >= 0
  {
    var i := SkipSpaces(s, 0);
    if i < |s| && (s[i] == '-' || s[i] == '+') then
      var m: int := DigitsValue(s[i + 1..DigitsEnd(s, i + 1)]);
      if s[i] == '-' then -m else m
    else
      DigitsValue(s[i..DigitsEnd(s, i)])
  }

  /** The base-10 rendering of `n` with no leading zeros. */
  function Decimal(n: nat): (r: string)
    ensures r != [] && AllDigits(r)
    ensures DigitsValue(r) == n
  {
    if n < 10 then [DigitChar(n)] else Decimal(n / 10) + [DigitChar(n % 10)]
  }

  /** Every character of a rendering is a digit, so it holds no separator. */
  lemma DecimalHasNo(n: nat, c: char)
    requires !IsDigit(c)
    ensures Lacks(Decimal(n), c)
  {
  }

  /** The digit run from `i` stops at `j` when `s[i..j]` is all digits and `s[j]` is not a digit. */
  lemma {:induction false} DigitsEndTo(s: string, i: nat, j: nat)
    requires i <= j <= |s|
    requires forall k :: i <= k < j ==> IsDigit(s[k])
    requires j == |s| || !IsDigit(s[j])
    ensures DigitsEnd(s, i) == j
    decreases j - i
  {
    if i < j {
      DigitsEndTo(s, i + 1, j);
    }
  }

  /**
   * `toInt` without a sign: after leading white space, the longest run of
   * digits is read and whatever follows it is ignored, so leading zeros,
   * padding and a non-digit tail (`" 07x"`) read as the digits' value.
   */
  lemma ToIntUnsigned(ws: string, ds: string, rest: string)
    requires forall k :: 0 <= k < |ws| ==> IsSpace(ws[k])
    requires ds != [] && AllDigits(ds)
    requires rest == [] || !IsDigit(rest[0])
    ensures ToInt(ws + ds + rest) == DigitsValue(ds)
  {
    var s := ws + ds + rest;
    var e := |ws| + |ds|;
    assert s[|ws|] == ds[0] && IsDigit(ds[0]);
    SkipSpacesTo(s, 0, |ws|);
    assert forall k :: |ws| <= k < e ==> s[k] == ds[k - |ws|];
    assert e < |s| ==> s[e] == rest[0];
    DigitsEndTo(s, |ws|, e);
    assert s[|ws|..e] == ds;
  }

  /**
   * `toInt` with a sign: after leading white space, one `+` or `-` and the
   * digit run after it (possibly empty, reading 0) give the signed value.
   */
  lemma ToIntSigned(ws: string, sign: char, ds: string, rest: string)
    requires forall k :: 0 <= k < |ws| ==> IsSpace(ws[k])
    requires sign == '-' || sign == '+'
    requires AllDigits(ds)
    requires rest == [] || !IsDigit(rest[0])
    ensures var m: int := DigitsValue(ds); ToInt(ws + [sign] + ds + rest) == if sign == '-' then -m else m
  {
    var s := ws + [sign] + ds + rest;
    var b := |ws| + 1;
    var e := b + |ds|;
    assert s[|ws|] == sign;
    SkipSpacesTo(s, 0, |ws|);
    assert forall k :: b <= k < e ==> s[k] == ds[k - b];
    assert e < |s| ==> s[e] == rest[0];
    DigitsEndTo(s, b, e);
    assert s[b..e] == ds;
  }

  /** A text made only of digits, leading zeros included, reads as their value. */
  lemma ToIntDigits(ds: string)
    requires ds != [] && AllDigits(ds)
    ensures ToInt(ds) == DigitsValue(ds)
  {
    ToIntUnsigned([], ds, []);
    assert [] + ds + [] == ds;
  }

  /** `toInt` inverts `Decimal`: parsing the rendering of `n` gives `n` back. */
  lemma ToIntDecimal(n: nat)
    ensures ToInt(Decimal(n)) == n
  {
    ToIntDigits(Decimal(n));
  }

  /**
   * The pieces of `s` between occurrences of `sep`, in order, read one
   * character at a time; there is always at least one piece.
   */
  function Split(s: string, sep: char): (r: seq<string>)
    ensures |r| >= 1
  {
    if s == [] then [[]]
    else
      var rest := Split(s[1..], sep);
      if s[0] == sep then [[]] + rest else [[s[0]] + rest[0]] + rest[1..]
  }

  /** Pieces glued back together with `sep` between neighbours. */
  function Join(parts: seq<string>, sep: char): string
    requires |parts| >= 1
  {
    if |parts| == 1 then parts[0] else parts[0] + [sep] + Join(parts[1..], sep)
  }

  /** Joining a first piece onto further pieces puts one separator between them. */
  lemma JoinCons(x: string, ps: seq<string>, sep: char)
    requires |ps| >= 1
    ensures Join([x] + ps, sep) == x + [sep] + Join(ps, sep)
  {
    assert ([x] + ps)[1..] == ps;
  }

  /** Prefixing a character to the first piece prefixes it to the joined text. */
  lemma JoinHead(c: char, ps: seq<string>, sep: char)
    requires |ps| >= 1
    ensures Join([[c] + ps[0]] + ps[1..], sep) == [c] + Join(ps, sep)
  {
    if |ps| > 1 {
      JoinCons([c] + ps[0], ps[1..], sep);
      JoinCons(ps[0], ps[1..], sep);
      assert ps == [ps[0]] + ps[1..];
    }
  }

  /** `Split` loses nothing: joining its pieces gives back the original text. */
  lemma {:induction false} JoinSplit(s: string, sep: char)
    ensures Join(Split(s, sep), sep) == s
  {
    if s != [] {
      var rest := Split(s[1..], sep);
      JoinSplit(s[1..], sep);
      if s[0] == sep {
        JoinCons([], rest, sep);
      } else {
        JoinHead(s[0], rest, sep);
      }
      assert s == [s[0]] + s[1..];
    }
  }

  /** Text without the separator is a single piece. */
  lemma {:induction false} SplitNone(s: string, sep: char)
    requires Lacks(s, sep)
    ensures Split(s, sep) == [s]
  {
    if s != [] {
      SplitNone(s[1..], sep);
      assert [s[0]] + s[1..] == s;
    }
  }

  /** Splitting text that holds no separator after a piece that holds none peels that piece off. */
  lemma {:induction false} SplitCons(x: string, sep: char, y: string)
    requires Lacks(x, sep)
    ensures Split(x + [sep] + y, sep) == [x] + Split(y, sep)
  {
    var s := x + [sep] + y;
    if x == [] {
      assert s[0] == sep && s[1..] == y;
    } else {
      assert s[0] == x[0] && s[1..] == x[1..] + [sep] + y;
      SplitCons(x[1..], sep, y);
      assert [x[0]] + x[1..] == x;
    }
  }
}

=== FILE: command_parsing.dfy ===
/**
 * Field parsing of the command protocol: splitting a comma-separated list
 * of integers the way the `pg` payload and `hr` loops do, `constrain`, and
 * `parseProgramacao` for the payload "ddddddd,HH,MM,HH,MM".
 */
module CommandParsing {
  import opened ArduinoText
  import opened Schedule

  datatype Option<T> = None | Some(value: T)

  /**
   * The texts of the field loop: `n` fields read from `s`, each up to the
   * next comma. Every field but the last needs a comma after it; the last one
   * runs to the next comma or to the end of the text, and anything after that
   * is ignored.
   */
  function FieldTexts(s: string, n: nat): (r: Option<seq<string>>)
    ensures r.Some? ==> |r.value| == n
    decreases n
  {
    if n == 0 then Some([])
    else
      var p := IndexOf(s, ',');
      if p == -1 then (if n > 1 then None else Some([s]))
      else
        match FieldTexts(s[p + 1..], n - 1)
        case None => None
        case Some(rest) => Some([s[..p]] + rest)
  }

  /**
   * The field loop read against `Split`: it succeeds exactly when the text
   * has at least `n` comma-separated pieces, and then yields the first `n`.
   */
  lemma {:induction false} FieldTextsAreSplitPieces(s: string, n: nat)
    requires n >= 1
    ensures FieldTexts(s, n).Some? <==> |Split(s, ',')| >= n
    ensures FieldTexts(s, n).Some? ==> FieldTexts(s, n).value == Split(s, ',')[..n]
    decreases n
  {
    var p := IndexOf(s, ',');
    if p < 0 {
      IndexOfFirst(s, ',');
      SplitNone(s, ',');
    } else {
      var rest := s[p + 1..];
      SplitAtFirstComma(s);
      FieldTextsCut(s, n);
      if n == 1 {
        assert FieldTexts(rest, 0) == Some([]);
        assert [s[..p]] + [] == [s[..p]];
      } else {
        FieldTextsAreSplitPieces(rest, n - 1);
        var tail := FieldTexts(rest, n - 1);
        if tail.Some? {
          TakeCons(s[..p], Split(rest, ','), n);
        }
      }
    }
  }

  /** Taking `n` from a sequence with a first element added takes `n - 1` from the rest. */
  lemma TakeCons(x: string, ps: seq<string>, n: nat)
    requires 1 <= n <= |ps| + 1
    ensures ([x] + ps)[..n] == [x] + ps[..n - 1]
  {
  }

  /** The pieces of a text with a comma: the text before its first comma, then the pieces after it. */
  lemma SplitAtFirstComma(s: string)
    requires IndexOf(s, ',') >= 0
    ensures var p := IndexOf(s, ',');
      Split(s, ',') == [s[..p]] + Split(s[p + 1..], ',')
  {
    var p := IndexOf(s, ',');
    IndexOfFirst(s, ',');
    assert s == s[..p] + [','] + s[p + 1..];
    SplitCons(s[..p], ',', s[p + 1..]);
  }

  /** `Some(xs + ys)` for `Some(ys)`, `None` for `None`. */
  function Prefixed(xs: seq<string>, r: Option<seq<string>>): Option<seq<string>> {
    match r
    case None => None
    case Some(ys) => Some(xs + ys)
  }

  /** The field loop on a text without a comma: that text is the last field, and no further field exists. */
  lemma FieldTextsLast(s: string, k: nat)
    requires k >= 1 && IndexOf(s, ',') == -1
    ensures k > 1 ==> FieldTexts(s, k) == None
    ensures k == 1 ==> FieldTexts(s, k) == Prefixed([s], FieldTexts("", 0))
  {
    if k == 1 {
      assert FieldTexts(s, k) == Some([s]);
      assert FieldTexts("", 0) == Some([]);
      assert [s] + [] == [s];
    }
  }

  /** One turn of the field loop: the text up to the first comma, then the fields after that comma. */
  lemma FieldTextsCut(s: string, k: nat)
    requires k >= 1 && IndexOf(s, ',') >= 0
    ensures var p := IndexOf(s, ',');
      FieldTexts(s, k) == Prefixed([s[..p]], FieldTexts(s[p + 1..], k - 1))
  {
    var p := IndexOf(s, ',');
    var tail := FieldTexts(s[p + 1..], k - 1);
    assert FieldTexts(s, k) == if tail.None? then None else Some([s[..p]] + tail.value);
  }

  lemma PrefixedNothing(xs: seq<string>)
    ensures Prefixed(xs, Some([])) == Some(xs)
  {
    assert xs + [] == xs;
  }

  lemma PrefixedPrefixed(xs: seq<string>, ys: seq<string>, r: Option<seq<string>>)
    ensures Prefixed(xs, Prefixed(ys, r)) == Prefixed(xs + ys, r)
  {
    if r.Some? {
      assert xs + (ys + r.value) == xs + ys + r.value;
    }
  }

  /**
   * The field loop as the code runs it, `s` cut down field by field and
   * `parts` filled with `toInt` of each field in order: it fails exactly when
   * the field texts do not exist, and otherwise gives their integer values
   * (`FieldTextsAreSplitPieces` reads those texts against `Split`).
   */
  method SplitIntFields(data: string, n: nat) returns (r: Option<seq<int>>)
    ensures r.Some? <==> FieldTexts(data, n).Some?
    ensures r.Some? ==> r.value == ToInts(FieldTexts(data, n).value)
  {
    var s := data;
    var parts: seq<int> := [];
    ghost var texts: seq<string> := [];
    assert Prefixed(texts, FieldTexts(data, n)) == FieldTexts(data, n) by {
      if FieldTexts(data, n).Some? {
        assert [] + FieldTexts(data, n).value == FieldTexts(data, n).value;
      }
    }
    for i := 0 to n
      invariant |texts| == i
      invariant parts == ToInts(texts)
      invariant FieldTexts(data, n) == Prefixed(texts, FieldTexts(s, n - i))
    {
      var ppos := IndexOf(s, ',');
      if ppos == -1 && i < n - 1 {
        FieldLoopStops(FieldTexts(data, n), texts, s, n - i);
        return None;
      }
      var f := if ppos == -1 then s else s[..ppos];
      var next := if ppos == -1 then "" else s[ppos + 1..];
      FieldLoopTurn(FieldTexts(data, n), texts, s, n - i, f, next);
      ToIntsSnoc(texts, f);
      parts := parts + [ToInt(f)];
      texts := texts + [f];
      s := next;
    }
    FieldLoopDone(FieldTexts(data, n), texts, s);
    r := Some(parts);
  }

  /** The field loop meets a text without a comma while more than one field is still due: it fails. */
  lemma FieldLoopStops(whole: Option<seq<string>>, texts: seq<string>, s: string, k: nat)
    requires k > 1 && IndexOf(s, ',') == -1
    requires whole == Prefixed(texts, FieldTexts(s, k))
    ensures whole == None
  {
    FieldTextsLast(s, k);
  }

  /** One turn of the field loop moves field `f` from the text still to read to the fields read. */
  lemma FieldLoopTurn(whole: Option<seq<string>>, texts: seq<string>, s: string, k: nat, f: string, next: string)
    requires k >= 1 && whole == Prefixed(texts, FieldTexts(s, k))
    requires var p := IndexOf(s, ',');
      if p == -1 then k == 1 && f == s && next == "" else f == s[..p] && next == s[p + 1..]
    ensures whole == Prefixed(texts + [f], FieldTexts(next, k - 1))
  {
    if IndexOf(s, ',') == -1 {
      FieldTextsLast(s, k);
    } else {
      FieldTextsCut(s, k);
    }
    PrefixedPrefixed(texts, [f], FieldTexts(next, k - 1));
  }

  /** When no field is left to read, the fields read are all of them. */
  lemma FieldLoopDone(whole: Option<seq<string>>, texts: seq<string>, s: string)
    requires whole == Prefixed(texts, FieldTexts(s, 0))
    ensures whole == Some(texts)
  {
    assert FieldTexts(s, 0) == Some([]);
    PrefixedNothing(texts);
  }

  /** `toInt` of each text, in order. */
  function ToInts(ts: seq<string>): (r: seq<int>)
    ensures |r| == |ts|
    ensures forall i :: 0 <= i < |ts| ==> r[i] == ToInt(ts[i])
  {
    if ts == [] then [] else ToInts(ts[..|ts| - 1]) + [ToInt(ts[|ts| - 1])]
  }

  /** Reading one more text appends its value. */
  lemma ToIntsSnoc(ts: seq<string>, t: string)
    ensures ToInts(ts + [t]) == ToInts(ts) + [ToInt(t)]
  {
    assert (ts + [t])[..|ts|] == ts;
  }

  /** Arduino's `constrain`: `x` brought into `[lo, hi]`. */
  function Clamp(x: int, lo: int, hi: int): (r: int)
    requires lo <= hi
    ensures lo <= r <= hi
    ensures lo <= x <= hi ==> r == x
    ensures x < lo ==> r == lo
    ensures x > hi ==> r == hi
  {
    if x < lo then lo else if x > hi then hi else x
  }

  /**
   * `parseProgramacao`: the trimmed payload must have a comma with exactly
   * seven characters before it, followed by at least four comma-separated
   * fields. Day `d` is on exactly when character `d` is '1'; hours are
   * clamped to 0..23 and minutes to 0..59; the enabled flag of `p` is kept.
   */
  function ParseRule(dataIn: string, p: Programacao): (r: Option<Programacao>)
    ensures r.Some? ==>
      r.value.hIni <= 23 && r.value.mIni <= 59 && r.value.hFim <= 23 && r.value.mFim <= 59 &&
      r.value.ativo == p.ativo
  {
    var s := Trim(dataIn);
    var pos := IndexOf(s, ',');
    if pos < 0 then None
    else
      var diasStr := s[..pos];
      if |diasStr| != 7 then None
      else
        match FieldTexts(s[pos + 1..], 4)
        case None => None
        case Some(parts) =>
          Some(Programacao(
            seq(7, i requires 0 <= i < 7 => diasStr[i] == '1'),
            Clamp(ToInt(parts[0]), 0, 23),
            Clamp(ToInt(parts[1]), 0, 59),
            Clamp(ToInt(parts[2]), 0, 23),
            Clamp(ToInt(parts[3]), 0, 59),
            p.ativo))
  }

  /**
   * What `parseProgramacao` accepts and builds, read against `Split`: it
   * succeeds exactly when the first comma of the trimmed payload is at
   * position 7 and at least four pieces follow it, and each time field is
   * `toInt` of its piece, clamped.
   */
  lemma ParseRuleSplit(dataIn: string, p: Programacao)
    ensures var s := Trim(dataIn);
      ParseRule(dataIn, p).Some? <==> IndexOf(s, ',') == 7 && |Split(s[8..], ',')| >= 4
    ensures var s := Trim(dataIn); var r := ParseRule(dataIn, p);
      r.Some? ==> (
        |s| >= 8 && |Split(s[8..], ',')| >= 4 &&
        var pieces := Split(s[8..], ',');
        (forall d :: 0 <= d < 7 ==> r.value.dias[d] == (s[d] == '1')) &&
        r.value.hIni == Clamp(ToInt(pieces[0]), 0, 23) &&
        r.value.mIni == Clamp(ToInt(pieces[1]), 0, 59) &&
        r.value.hFim == Clamp(ToInt(pieces[2]), 0, 23) &&
        r.value.mFim == Clamp(ToInt(pieces[3]), 0, 59))
  {
    var s := Trim(dataIn);
    var pos := IndexOf(s, ',');
    if pos == 7 {
      FieldTextsAreSplitPieces(s[8..], 4);
    }
  }

  /** `parseProgramacao` as the code runs it; on failure the caller discards the rule. */
  method ParseProgramacao(dataIn: string, p: Programacao) returns (r: Option<Programacao>)
    ensures r == ParseRule(dataIn, p)
  {
    var s := Trim(dataIn);
    var pos := IndexOf(s, ',');
    if pos < 0 {
      return None;
    }
    var diasStr := s[..pos];
    if |diasStr| != 7 {
      return None;
    }
    var dias: seq<bool> := [];
    for i := 0 to 7
      invariant |dias| == i
      invariant forall j :: 0 <= j < i ==> dias[j] == (diasStr[j] == '1')
    {
      dias := dias + [diasStr[i] == '1'];
    }
    assert dias == seq(7, i requires 0 <= i < 7 => diasStr[i] == '1');
    var parts := SplitIntFields(s[pos + 1..], 4);
    if parts.None? {
      return None;
    }
    var hIni := Clamp(parts.value[0], 0, 23);
    var mIni := Clamp(parts.value[1], 0, 59);
    var hFim := Clamp(parts.value[2], 0, 23);
    var mFim := Clamp(parts.value[3], 0, 59);
    return Some(Programacao(dias, hIni, mIni, hFim, mFim, p.ativo));
  }

  /** The day string the protocol expects: '1' for an active day, '0' otherwise. */
  function DayString(dias: DayFlags): (s: string)
    ensures |s| == 7 && Lacks(s, ',')
  {
    seq(7, i requires 0 <= i < 7 => if dias[i] then '1' else '0')
  }

  /** The day string reads back as the day flags it was written from. */
  lemma DayStringReadsBack(dias: DayFlags)
    ensures seq(7, i requires 0 <= i < 7 => DayString(dias)[i] == '1') == dias
  {
    var days := DayString(dias);
    var read := seq(7, i requires 0 <= i < 7 => days[i] == '1');
    forall i | 0 <= i < 7
      ensures read[i] == dias[i]
    {
      assert days[i] == if dias[i] then '1' else '0';
    }
  }

  /** Four pieces joined by commas: "a,b,c,d". */
  function Join4(a: string, b: string, c: string, d: string): string {
    a + [','] + (b + [','] + (c + [','] + d))
  }

  /** Four comma-free pieces joined by commas split back into those pieces. */
  lemma SplitJoin4(a: string, b: string, c: string, d: string)
    requires Lacks(a, ',') && Lacks(b, ',') && Lacks(c, ',') && Lacks(d, ',')
    ensures Split(Join4(a, b, c, d), ',') == [a, b, c, d]
  {
    var cd := c + [','] + d;
    var bcd := b + [','] + cd;
    var abcd := a + [','] + bcd;
    SplitNone(d, ',');
    SplitCons(c, ',', d);
    assert Split(cd, ',') == [c, d];
    SplitCons(b, ',', cd);
    assert Split(bcd, ',') == [b, c, d];
    SplitCons(a, ',', bcd);
    assert [a] + [b, c, d] == [a, b, c, d];
    assert Split(abcd, ',') == [a, b, c, d];
    assert Join4(a, b, c, d) == abcd;
  }

  /** The field loop reads four comma-free fields joined by commas back as those fields. */
  lemma FieldTextsJoin4(a: string, b: string, c: string, d: string)
    requires Lacks(a, ',') && Lacks(b, ',') && Lacks(c, ',') && Lacks(d, ',')
    ensures FieldTexts(Join4(a, b, c, d), 4) == Some([a, b, c, d])
  {
    SplitJoin4(a, b, c, d);
    FieldTextsAreSplitPieces(Join4(a, b, c, d), 4);
    assert [a, b, c, d][..4] == [a, b, c, d];
  }

  /** A payload "days,a,b,c,d" with no white space at its ends parses field by field. */
  lemma ParsePayload(days: string, a: string, b: string, c: string, d: string, q: Programacao)
    requires |days| == 7 && Lacks(days, ',') && !IsSpace(days[0])
    requires Lacks(a, ',') && Lacks(b, ',') && Lacks(c, ',') && Lacks(d, ',')
    requires d == [] || !IsSpace(d[|d| - 1])
    ensures ParseRule(days + [','] + Join4(a, b, c, d), q) ==
      Some(Programacao(
        seq(7, i requires 0 <= i < 7 => days[i] == '1'),
        Clamp(ToInt(a), 0, 23), Clamp(ToInt(b), 0, 59),
        Clamp(ToInt(c), 0, 23), Clamp(ToInt(d), 0, 59),
        q.ativo))
  {
    var times := Join4(a, b, c, d);
    var s := days + [','] + times;
    if d == [] {
      assert s[|s| - 1] == ',';
    } else {
      assert s[|s| - 1] == d[|d| - 1];
    }
    assert s[0] == days[0];
    TrimUnchanged(s);
    IndexOfAfter(days, ',', times);
    assert s[..7] == days && s[8..] == times;
    FieldTextsJoin4(a, b, c, d);
  }

  /** The payload "ddddddd,HH,MM,HH,MM" that describes rule `p`, times in plain decimal. */
  function FormatRule(p: Programacao): (r: string)
    ensures r != [] && IsDigit(r[0]) && IsDigit(r[|r| - 1])
  {
    DayString(p.dias) + [','] + Join4(Decimal(p.hIni), Decimal(p.mIni), Decimal(p.hFim), Decimal(p.mFim))
  }

  /** `p` with its hours clamped to 0..23 and its minutes to 0..59, as the parser stores them. */
  function Clamped(p: Programacao): (q: Programacao)
    ensures q.hIni <= 23 && q.mIni <= 59 && q.hFim <= 23 && q.mFim <= 59
    ensures p.hIni <= 23 && p.mIni <= 59 && p.hFim <= 23 && p.mFim <= 59 ==> q == p
  {
    p.(hIni := Clamp(p.hIni, 0, 23), mIni := Clamp(p.mIni, 0, 59),
       hFim := Clamp(p.hFim, 0, 23), mFim := Clamp(p.mFim, 0, 59))
  }

  /** The payload of rule `p` written with any comma-free time texts that read back as its times. */
  lemma ParseRuleText(p: Programacao, q: Programacao, a: string, b: string, c: string, d: string)
    requires Lacks(a, ',') && Lacks(b, ',') && Lacks(c, ',') && Lacks(d, ',')
    requires d == [] || !IsSpace(d[|d| - 1])
    requires ToInt(a) == p.hIni && ToInt(b) == p.mIni && ToInt(c) == p.hFim && ToInt(d) == p.mFim
    ensures ParseRule(DayString(p.dias) + [','] + Join4(a, b, c, d), q) == Some(Clamped(p).(ativo := q.ativo))
  {
    var days := DayString(p.dias);
    assert IsDigit(days[0]);
    ParsePayload(days, a, b, c, d, q);
    DayStringReadsBack(p.dias);
  }

  /**
   * Parsing the payload of a rule gives the rule back, with out-of-range
   * hours and minutes clamped (hour 25 is stored as 23) and the enabled flag
   * taken from `q`; for a rule with valid times this is an exact round trip.
   */
  lemma ParseFormatRule(p: Programacao, q: Programacao)
    ensures ParseRule(FormatRule(p), q) == Some(Clamped(p).(ativo := q.ativo))
  {
    var a, b, c, d := Decimal(p.hIni), Decimal(p.mIni), Decimal(p.hFim), Decimal(p.mFim);
    DecimalHasNo(p.hIni, ',');
    DecimalHasNo(p.mIni, ',');
    DecimalHasNo(p.hFim, ',');
    DecimalHasNo(p.mFim, ',');
    ToIntDecimal(p.hIni);
    ToIntDecimal(p.mIni);
    ToIntDecimal(p.hFim);
    ToIntDecimal(p.mFim);
    assert IsDigit(d[|d| - 1]);
    ParseRuleText(p, q, a, b, c, d);
  }
}

=== FILE: command_properties.dfy ===
/**
 * Properties of the command interpreter that relate several inputs or
 * several calls: whole commands built from a rule or a slot number, the
 * optional '#', surrounding white space, repeating a command, and the field
 * order of `hr`.
 */
module CommandProperties {
  import opened ArduinoText
  import opened Schedule
  import opened CommandParsing
  import opened Commands

  /**
   * The `pg` branch on `pg<n>,<payload>`: a number outside 1..10 is refused,
   * a payload that does not parse is refused, and otherwise the parsed rule,
   * enabled, goes to slot `n - 1`.
   */
  lemma PgBranch(n: nat, body: string, slots: seq<Programacao>)
    requires |slots| == MaxProgramacoes
    ensures StartsWith("pg" + Decimal(n) + [','] + body, "pg")
    ensures InterpretPg("pg" + Decimal(n) + [','] + body, slots) ==
      if !(1 <= n <= MaxProgramacoes) then (ErrIdx, slots)
      else match ParseRule(body, Empty)
        case None => (ErrPgInvalid, slots)
        case Some(r) => (Saved(n), slots[n - 1 := r.(ativo := true)])
  {
    var num := Decimal(n);
    var head := "pg" + num;
    var c := head + [','] + body;
    assert c[..2] == "pg";
    DecimalHasNo(n, ',');
    assert Lacks(head, ',') by {
      forall i | 0 <= i < |head| ensures head[i] != ',' {
        if i >= 2 {
          assert head[i] == num[i - 2];
        }
      }
    }
    IndexOfAfter(head, ',', body);
    assert c[2..|head|] == num;
    assert c[|head| + 1..] == body;
    SlotIndexOfDecimal(n);
  }

  /**
   * `pg<n>,ddddddd,HH,MM,HH,MM` with any comma-free time texts (leading
   * zeros included) stores the rule they describe, times clamped and
   * enabled, in slot `n - 1` when `n` is 1..10 and reports slot `n`; any
   * other number is refused and nothing changes. The last text may be
   * empty (it reads as 0) but may not end in white space, which `trim`
   * would take off the whole command first.
   */
  lemma PgCommand(n: nat, p: Programacao, a: string, b: string, c: string, d: string,
                  slots: seq<Programacao>, now: Moment)
    requires |slots| == MaxProgramacoes
    requires Lacks(a, ',') && Lacks(b, ',') && Lacks(c, ',') && Lacks(d, ',')
    requires d == [] || !IsSpace(d[|d| - 1])
    requires ToInt(a) == p.hIni && ToInt(b) == p.mIni && ToInt(c) == p.hFim && ToInt(d) == p.mFim
    ensures Interpret("pg" + Decimal(n) + [','] + (DayString(p.dias) + [','] + Join4(a, b, c, d)), slots, now) ==
      if 1 <= n <= MaxProgramacoes then (Saved(n), slots[n - 1 := Clamped(p).(ativo := true)])
      else (ErrIdx, slots)
  {
    var body := DayString(p.dias) + [','] + Join4(a, b, c, d);
    var cmd := "pg" + Decimal(n) + [','] + body;
    assert cmd[0] == 'p';
    if d == [] {
      assert cmd[|cmd| - 1] == ',';
    } else {
      assert cmd[|cmd| - 1] == d[|d| - 1];
    }
    PlainCommand(cmd, slots, now);
    PgBranch(n, body, slots);
    ParseRuleText(p, Empty, a, b, c, d);
    assert Dispatch(cmd, slots, now) == InterpretPg(cmd, slots);
  }

  /** The payload the code's own format writes for `p` is one such command. */
  lemma PgFormattedCommand(n: nat, p: Programacao, slots: seq<Programacao>, now: Moment)
    requires |slots| == MaxProgramacoes
    ensures Interpret("pg" + Decimal(n) + [','] + FormatRule(p), slots, now) ==
      if 1 <= n <= MaxProgramacoes then (Saved(n), slots[n - 1 := Clamped(p).(ativo := true)])
      else (ErrIdx, slots)
  {
    var a, b, c, d := Decimal(p.hIni), Decimal(p.mIni), Decimal(p.hFim), Decimal(p.mFim);
    DecimalHasNo(p.hIni, ',');
    DecimalHasNo(p.mIni, ',');
    DecimalHasNo(p.hFim, ',');
    DecimalHasNo(p.mFim, ',');
    ToIntDecimal(p.hIni);
    ToIntDecimal(p.mIni);
    ToIntDecimal(p.hFim);
    ToIntDecimal(p.mFim);
    assert IsDigit(d[|d| - 1]);
    assert FormatRule(p) == DayString(p.dias) + [','] + Join4(a, b, c, d);
    PgCommand(n, p, a, b, c, d, slots, now);
  }

  /** The slot-operation branch on `rm<n>`, `dt<n>`, `at<n>`. */
  lemma SlotOpBranch(op: SlotOp, n: nat, slots: seq<Programacao>)
    requires |slots| == MaxProgramacoes
    ensures InterpretSlotOp(op, OpName(op) + Decimal(n), slots) ==
      if 1 <= n <= MaxProgramacoes then (Report(op, n), slots[n - 1 := ApplyOp(op, slots[n - 1])])
      else (ErrIdx, slots)
  {
    var c := OpName(op) + Decimal(n);
    assert c[2..] == Decimal(n);
    SlotIndexOfDecimal(n);
  }

  /** A command that is already trimmed and has no '#' goes straight to the dispatch. */
  lemma PlainCommand(c: string, slots: seq<Programacao>, now: Moment)
    requires |slots| == MaxProgramacoes
    requires c != [] && !IsSpace(c[0]) && !IsSpace(c[|c| - 1]) && c[0] != '#'
    ensures Interpret(c, slots, now) == Dispatch(c, slots, now)
  {
    TrimUnchanged(c);
  }

  /** A command starting with an operation's name reaches that operation. */
  lemma DispatchSlotOp(op: SlotOp, c: string, slots: seq<Programacao>, now: Moment)
    requires |slots| == MaxProgramacoes && |c| >= 2 && c[..2] == OpName(op)
    ensures Dispatch(c, slots, now) == InterpretSlotOp(op, c, slots)
  {
    assert c[0] == OpName(op)[0] && c[1] == OpName(op)[1];
    assert !StartsWith(c, "pg");
    match op {
      case Remove =>
        assert StartsWith(c, "rm");
      case Disable =>
        assert !StartsWith(c, "rm") && StartsWith(c, "dt");
      case Enable =>
        assert !StartsWith(c, "rm") && !StartsWith(c, "dt") && StartsWith(c, "at");
    }
  }

  /**
   * `rm<n>`, `dt<n>`, `at<n>` act on slot `n - 1` alone when `n` is 1..10
   * and report slot `n`; any other number is refused and nothing changes.
   */
  lemma SlotOpCommand(op: SlotOp, n: nat, slots: seq<Programacao>, now: Moment)
    requires |slots| == MaxProgramacoes
    ensures Interpret(OpName(op) + Decimal(n), slots, now) ==
      if 1 <= n <= MaxProgramacoes then (Report(op, n), slots[n - 1 := ApplyOp(op, slots[n - 1])])
      else (ErrIdx, slots)
  {
    var num := Decimal(n);
    var c := OpName(op) + num;
    assert c[|c| - 1] == num[|num| - 1];
    assert c[0] == OpName(op)[0];
    PlainCommand(c, slots, now);
    assert c[..2] == OpName(op);
    DispatchSlotOp(op, c, slots, now);
    SlotOpBranch(op, n, slots);
  }

  /** A command starting with `hr` reaches the clock branch and leaves the slots alone. */
  lemma DispatchHr(c: string, slots: seq<Programacao>, now: Moment)
    requires |slots| == MaxProgramacoes && |c| >= 2 && c[..2] == "hr"
    ensures Dispatch(c, slots, now) == (InterpretHr(c), slots)
  {
    assert c[0] == 'h' && c[1] == 'r';
    assert !StartsWith(c, "pg") && !StartsWith(c, "rm") && !StartsWith(c, "dt") && !StartsWith(c, "at");
    assert StartsWith(c, "hr");
  }

  /**
   * A whole `hr` command: it fails exactly when fewer than five
   * comma-separated fields follow `hr`; otherwise it sets year, month, day,
   * hour and minute from fields 5, 4, 3, 1 and 2, seconds 0. The slots are
   * never changed.
   */
  lemma HrCommand(c: string, slots: seq<Programacao>, now: Moment)
    requires |slots| == MaxProgramacoes && |c| >= 2 && c[..2] == "hr" && !IsSpace(c[|c| - 1])
    ensures Interpret(c, slots, now).1 == slots
    ensures Interpret(c, slots, now).0 == ErrHrFormat <==> |Split(c[2..], ',')| < 5
    ensures Interpret(c, slots, now).0 != ErrHrFormat ==> (var f := Split(c[2..], ',');
      Interpret(c, slots, now).0 == ClockAdjusted(
        ClockSetting(ToInt(f[4]), ToInt(f[3]), ToInt(f[2]), ToInt(f[0]), ToInt(f[1]), 0)))
  {
    assert c[0] == 'h';
    PlainCommand(c, slots, now);
    DispatchHr(c, slots, now);
    HrReadsFiveFields(c);
  }

  /** A command starting with `st` reaches the status listing and leaves the slots alone. */
  lemma DispatchSt(c: string, slots: seq<Programacao>, now: Moment)
    requires |slots| == MaxProgramacoes && |c| >= 2 && c[..2] == "st"
    ensures Dispatch(c, slots, now) == (Status(StatusReport(slots, now)), slots)
  {
    assert c[0] == 's' && c[1] == 't';
    assert !StartsWith(c, "pg") && !StartsWith(c, "rm") && !StartsWith(c, "dt") && !StartsWith(c, "at");
    assert !StartsWith(c, "hr") && StartsWith(c, "st");
  }

  /** `st`, with or without '#' and padding, lists every slot and changes nothing. */
  lemma StCommand(pre: string, post: string, slots: seq<Programacao>, now: Moment)
    requires |slots| == MaxProgramacoes
    requires forall i :: 0 <= i < |pre| ==> IsSpace(pre[i])
    requires forall i :: 0 <= i < |post| ==> IsSpace(post[i])
    ensures Interpret(pre + "st" + post, slots, now) == (Status(StatusReport(slots, now)), slots)
    ensures Interpret(pre + "#st" + post, slots, now) == (Status(StatusReport(slots, now)), slots)
  {
    PaddingIgnored(pre, "st", post, slots, now);
    PaddingIgnored(pre, "#st", post, slots, now);
    PlainCommand("st", slots, now);
    HashIsOptional("st", slots, now);
    assert ['#'] + "st" == "#st";
    DispatchSt("st", slots, now);
  }

  /** A command that starts with none of the six command names is refused and changes nothing. */
  lemma DispatchUnknown(c: string, slots: seq<Programacao>, now: Moment)
    requires |slots| == MaxProgramacoes
    requires !StartsWith(c, "pg") && !StartsWith(c, "rm") && !StartsWith(c, "dt")
    requires !StartsWith(c, "at") && !StartsWith(c, "hr") && !StartsWith(c, "st")
    ensures Dispatch(c, slots, now) == (ErrUnknown, slots)
  {
  }

  /** The leading '#' is optional: a command means the same with or without it. */
  lemma HashIsOptional(c: string, slots: seq<Programacao>, now: Moment)
    requires |slots| == MaxProgramacoes
    requires c != [] && !IsSpace(c[0]) && !IsSpace(c[|c| - 1]) && c[0] != '#'
    ensures Interpret(['#'] + c, slots, now) == Interpret(c, slots, now)
  {
    var h := ['#'] + c;
    assert h[|h| - 1] == c[|c| - 1];
    TrimUnchanged(h);
    TrimUnchanged(c);
    assert h[0] == '#' && h[1..] == c;
  }

  /** White space around a command is ignored. */
  lemma PaddingIgnored(pre: string, c: string, post: string, slots: seq<Programacao>, now: Moment)
    requires |slots| == MaxProgramacoes
    requires forall i :: 0 <= i < |pre| ==> IsSpace(pre[i])
    requires forall i :: 0 <= i < |post| ==> IsSpace(post[i])
    requires c == [] || (!IsSpace(c[0]) && !IsSpace(c[|c| - 1]))
    ensures Interpret(pre + c + post, slots, now) == Interpret(c, slots, now)
  {
    TrimPadded(pre, c, post);
    if c != [] {
      TrimUnchanged(c);
    }
  }

  /** Dispatching the same command again on the slots it produced changes nothing more. */
  lemma DispatchIdempotent(cmd: string, slots: seq<Programacao>, now: Moment)
    requires |slots| == MaxProgramacoes
    ensures Dispatch(cmd, Dispatch(cmd, slots, now).1, now) == Dispatch(cmd, slots, now)
  {
    var (o1, s1) := Dispatch(cmd, slots, now);
    if StartsWith(cmd, "pg") {
      if o1.Saved? {
        var k := o1.slot - 1;
        assert s1[k := s1[k]] == s1;
      }
    } else if StartsWith(cmd, "rm") || StartsWith(cmd, "dt") || StartsWith(cmd, "at") {
      var op := if StartsWith(cmd, "rm") then Remove else if StartsWith(cmd, "dt") then Disable else Enable;
      if o1 != ErrIdx {
        var k := o1.slot - 1;
        assert ApplyOp(op, ApplyOp(op, slots[k])) == ApplyOp(op, slots[k]);
        assert s1[k := ApplyOp(op, s1[k])] == s1;
      }
    }
  }

  /**
   * Repeating a command changes nothing more: the second run reports the
   * same outcome and leaves the slots as the first run left them.
   */
  lemma InterpretIdempotent(c: string, slots: seq<Programacao>, now: Moment)
    requires |slots| == MaxProgramacoes
    ensures Interpret(c, Interpret(c, slots, now).1, now) == Interpret(c, slots, now)
  {
    var t := Trim(c);
    if t != [] {
      DispatchIdempotent(if t[0] == '#' then t[1..] else t, slots, now);
    }
  }

  /**
   * `hr` fails exactly when fewer than five comma-separated fields follow
   * it, and otherwise sets the clock from fields hour, minute, day, month,
   * year in that order, seconds zero.
   */
  lemma HrReadsFiveFields(cmd: string)
    requires |cmd| >= 2
    ensures InterpretHr(cmd) == ErrHrFormat <==> |Split(cmd[2..], ',')| < 5
    ensures var f := Split(cmd[2..], ',');
      InterpretHr(cmd).ClockAdjusted? ==>
        InterpretHr(cmd).setting ==
          ClockSetting(ToInt(f[4]), ToInt(f[3]), ToInt(f[2]), ToInt(f[0]), ToInt(f[1]), 0)
  {
    FieldTextsAreSplitPieces(cmd[2..], 5);
  }
}

=== FILE: commands.dfy ===
/**
 * The command interpreter: `processaComando` reads one command (without the
 * ';' terminator), trims it, drops one leading '#', and dispatches on its
 * first two letters: `pg` stores a rule, `rm`/`dt`/`at` remove, disable or
 * enable a slot, `hr` sets the clock and `st` lists the slots. Every command
 * that changes a slot saves the whole store to the EEPROM.
 *
 * What the code prints becomes an `Outcome`; the clock is a `Moment`
 * parameter for `st` and an outcome carrying the new setting for `hr`.
 */
module Commands {
  import opened ArduinoText
  import opened Schedule
  import opened Persistence
  import opened CommandParsing

  /** The clock reading `st` works from: weekday (0 = Sunday), hour and minute. */
  datatype Moment = Moment(dow: Weekday, hour: int, minute: int)

  /** The date and time `hr` hands to the clock, fields as the code passes them. */
  datatype ClockSetting = ClockSetting(year: int, month: int, day: int, hour: int, minute: int, second: int)

  /** One line of the `st` listing: "Vazio", or the rule with whether it is on right now. */
  datatype SlotStatus = Vazio | Shown(prog: Programacao, onNow: bool)

  /** What a command reports; slot numbers are the 1-based numbers the code prints. */
  datatype Outcome =
    | Ignored
    | ErrPgFormat
    | ErrIdx
    | ErrPgInvalid
    | ErrHrFormat
    | ErrUnknown
    | Saved(slot: int)
    | Removed(slot: int)
    | Disabled(slot: int)
    | Enabled(slot: int)
    | ClockAdjusted(setting: ClockSetting)
    | Status(lines: seq<SlotStatus>)

  /** The outcomes after which the code has changed a slot and saved the store. */
  predicate Mutating(out: Outcome) {
    out.Saved? || out.Removed? || out.Disabled? || out.Enabled?
  }

  /** The three slot operations of `rm`, `dt` and `at`. */
  datatype SlotOp = Remove | Disable | Enable

  /** The two command letters of a slot operation. */
  function OpName(op: SlotOp): (s: string)
    ensures |s| == 2
  {
    match op
    case Remove => "rm"
    case Disable => "dt"
    case Enable => "at"
  }

  /** What `remover`, `desativar` and `ativar` leave in the slot they act on. */
  function ApplyOp(op: SlotOp, p: Programacao): (q: Programacao)
    ensures op == Remove ==> SlotVazio(q) && !q.ativo
    ensures op != Remove ==> q.dias == p.dias && q.hIni == p.hIni && q.mIni == p.mIni &&
                             q.hFim == p.hFim && q.mFim == p.mFim && q.ativo == (op == Enable)
  {
    match op
    case Remove => Empty
    case Disable => p.(ativo := false)
    case Enable => p.(ativo := true)
  }

  function Report(op: SlotOp, slot: int): (out: Outcome)
    ensures Mutating(out)
  {
    match op
    case Remove => Removed(slot)
    case Disable => Disabled(slot)
    case Enable => Enabled(slot)
  }

  /** A 0-based slot index that names one of the ten slots. */
  predicate InRange(idx: int) {
    0 <= idx < MaxProgramacoes
  }

  /** The 0-based index a command names: `toInt` of its number text, minus one. */
  function SlotIndex(arg: string): (idx: int)
    ensures InRange(idx) <==> 1 <= ToInt(arg) <= MaxProgramacoes
  {
    ToInt(arg) - 1
  }

  /** Command number `n` written in decimal names slot `n - 1`, a real slot exactly when `n` is 1..10. */
  lemma SlotIndexOfDecimal(n: nat)
    ensures SlotIndex(Decimal(n)) == n - 1
    ensures InRange(SlotIndex(Decimal(n))) <==> 1 <= n <= MaxProgramacoes
  {
    ToIntDecimal(n);
  }

  // ---------------------------------------------------------------------
  // The status listing

  /** The emptiness test of the listing: all four time fields zero, days ignored. */
  predicate TimesZero(p: Programacao)
    ensures TimesZero(p) <==> SlotVazio(p.(dias := NoDays))
    ensures SlotVazio(p) ==> TimesZero(p)
  {
    p.hIni == 0 && p.mIni == 0 && p.hFim == 0 && p.mFim == 0
  }

  /**
   * `estaAtivaAgoraLocal`: enabled, on for `dow`, and the time inside the
   * window. It agrees with the scheduler's test on every slot the listing
   * shows: a slot with a non-zero time is never one the scheduler calls empty.
   */
  predicate EstaAtivaAgoraLocal(p: Programacao, dow: Weekday, hour: int, minute: int)
    ensures !TimesZero(p) ==> (EstaAtivaAgoraLocal(p, dow, hour, minute) <==> ProgAtivaAgora(p, dow, hour, minute))
  {
    p.ativo && p.dias[dow] &&
    InWindow(MinuteOfDay(hour, minute), MinuteOfDay(p.hIni, p.mIni), MinuteOfDay(p.hFim, p.mFim))
  }

  /** The listing's line for one slot at moment `now`. */
  function StatusOf(p: Programacao, now: Moment): (r: SlotStatus)
    ensures r.Vazio? <==> TimesZero(p)
    ensures r.Shown? ==> r.prog == p && r.onNow == ProgAtivaAgora(p, now.dow, now.hour, now.minute)
  {
    if TimesZero(p) then Vazio else Shown(p, EstaAtivaAgoraLocal(p, now.dow, now.hour, now.minute))
  }

  /** The whole listing, slot by slot. */
  function StatusReport(slots: seq<Programacao>, now: Moment): (r: seq<SlotStatus>)
    ensures |r| == |slots|
  {
    seq(|slots|, i requires 0 <= i < |slots| => StatusOf(slots[i], now))
  }

  /**
   * Line `i` of the listing is "Vazio" exactly when the slot's times are all
   * zero; otherwise it shows that slot and the scheduler's verdict for it.
   */
  lemma StatusReportAgrees(slots: seq<Programacao>, now: Moment, i: nat)
    requires i < |slots|
    ensures StatusReport(slots, now)[i].Vazio? <==> TimesZero(slots[i])
    ensures StatusReport(slots, now)[i].Shown? ==>
      StatusReport(slots, now)[i].prog == slots[i] &&
      StatusReport(slots, now)[i].onNow == ProgAtivaAgora(slots[i], now.dow, now.hour, now.minute)
  {
    if !TimesZero(slots[i]) {
    }
  }

  /**
   * The two emptiness tests differ: an enabled 00:00-00:00 rule with a day
   * set is listed as "Vazio", yet the scheduler switches the output on for
   * it at midnight of that day.
   */
  lemma StatusHidesMidnightRule(p: Programacao, dow: Weekday)
    requires p.ativo && p.dias[dow] && TimesZero(p)
    ensures StatusOf(p, Moment(dow, 0, 0)) == Vazio
    ensures ProgAtivaAgora(p, dow, 0, 0)
  {
    assert !SlotVazio(p) by { assert p.dias[dow]; }
  }

  /** The `st` loop: one line per slot, read through `getProgramacao`. */
  method StatusListing(prog: Programador, now: Moment) returns (lines: seq<SlotStatus>)
    requires prog.Valid()
    ensures lines == StatusReport(prog.Slots(), now)
  {
    lines := [];
    for i := 0 to MaxProgramacoes
      invariant |lines| == i
      invariant forall j :: 0 <= j < i ==> lines[j] == StatusOf(prog.progs[j], now)
    {
      var p := prog.GetProgramacao(i);
      var vazio := p.hIni == 0 && p.mIni == 0 && p.hFim == 0 && p.mFim == 0;
      if vazio {
        lines := lines + [Vazio];
        continue;
      }
      var ativoAgora := EstaAtivaAgoraLocal(p, now.dow, now.hour, now.minute);
      lines := lines + [Shown(p, ativoAgora)];
    }
  }

  // ---------------------------------------------------------------------
  // The interpreter as a function of the command and the slots

  /**
   * `pg` after its comma: `num`, the text between `pg` and the comma, must
   * name a slot and `dados`, the text after the comma, must parse as a rule;
   * the rule is then stored there, enabled.
   */
  function PgStore(num: string, dados: string, slots: seq<Programacao>): (res: (Outcome, seq<Programacao>))
    requires |slots| == MaxProgramacoes
    ensures |res.1| == MaxProgramacoes
    ensures !InRange(SlotIndex(num)) ==> res == (ErrIdx, slots)
    ensures InRange(SlotIndex(num)) && ParseRule(dados, Empty).None? ==> res == (ErrPgInvalid, slots)
    ensures InRange(SlotIndex(num)) && ParseRule(dados, Empty).Some? ==>
      var k := SlotIndex(num);
      res.0 == Saved(k + 1) && res.1 == slots[k := res.1[k]] && res.1[k] == ParseRule(dados, Empty).value.(ativo := true)
  {
    var idx := SlotIndex(num);
    if !InRange(idx) then (ErrIdx, slots)
    else
      match ParseRule(dados, Empty)
      case None => (ErrPgInvalid, slots)
      case Some(p) => (Saved(idx + 1), slots[idx := p.(ativo := true)])
  }

  /** `pg`: the slot number runs up to the first comma, the rule payload follows it. */
  function InterpretPg(cmd: string, slots: seq<Programacao>): (res: (Outcome, seq<Programacao>))
    requires StartsWith(cmd, "pg") && |slots| == MaxProgramacoes
    ensures |res.1| == MaxProgramacoes
    ensures res.0.Saved? || res.0 == ErrPgFormat || res.0 == ErrIdx || res.0 == ErrPgInvalid
    ensures !res.0.Saved? ==> res.1 == slots
    ensures res.0.Saved? ==> (
      var k := res.0.slot - 1;
      InRange(k) && res.1 == slots[k := res.1[k]] &&
      res.1[k].ativo && res.1[k].hIni <= 23 && res.1[k].mIni <= 59 && res.1[k].hFim <= 23 && res.1[k].mFim <= 59)
  {
    var sep := IndexOf(cmd, ',');
    if sep < 0 then (ErrPgFormat, slots)
    else
      assert cmd[0] == 'p' && cmd[1] == 'g';
      PgStore(cmd[2..sep], cmd[sep + 1..], slots)
  }

  /** `pg` without a comma is a format error and leaves the slots alone. */
  lemma PgFormatError(cmd: string, slots: seq<Programacao>)
    requires StartsWith(cmd, "pg") && |slots| == MaxProgramacoes && Lacks(cmd, ',')
    ensures InterpretPg(cmd, slots) == (ErrPgFormat, slots)
  {
    IndexOfFirst(cmd, ',');
  }

  /** `pg` with a comma: what follows `pg` up to the first comma is the slot number, the rest the payload. */
  lemma PgWithComma(cmd: string, slots: seq<Programacao>)
    requires StartsWith(cmd, "pg") && |slots| == MaxProgramacoes && !Lacks(cmd, ',')
    ensures var sep := IndexOf(cmd, ',');
      2 <= sep && InterpretPg(cmd, slots) == PgStore(cmd[2..sep], cmd[sep + 1..], slots)
  {
    IndexOfFirst(cmd, ',');
    assert cmd[0] == 'p' && cmd[1] == 'g';
  }

  /** `rm`, `dt`, `at`: the slot number is the rest of the command. */
  function InterpretSlotOp(op: SlotOp, cmd: string, slots: seq<Programacao>): (res: (Outcome, seq<Programacao>))
    requires |cmd| >= 2 && |slots| == MaxProgramacoes
    ensures |res.1| == MaxProgramacoes
    ensures res.0 == ErrIdx ==> res.1 == slots
    ensures res.0 == ErrIdx || (
      Mutating(res.0) && res.0 == Report(op, res.0.slot) && InRange(res.0.slot - 1) &&
      res.1 == slots[res.0.slot - 1 := ApplyOp(op, slots[res.0.slot - 1])])
  {
    var idx := SlotIndex(cmd[2..]);
    if !InRange(idx) then (ErrIdx, slots)
    else (Report(op, idx + 1), slots[idx := ApplyOp(op, slots[idx])])
  }

  /** `hr HH,MM,DD,MM,YYYY`: five fields, handed to the clock as year, month, day, hour, minute, second 0. */
  function InterpretHr(cmd: string): (out: Outcome)
    requires |cmd| >= 2
    ensures out.ErrHrFormat? || out.ClockAdjusted?
    ensures out.ClockAdjusted? ==> out.setting.second == 0
  {
    match FieldTexts(cmd[2..], 5)
    case None => ErrHrFormat
    case Some(t) =>
      ClockAdjusted(ClockSetting(ToInt(t[4]), ToInt(t[3]), ToInt(t[2]), ToInt(t[0]), ToInt(t[1]), 0))
  }

  /**
   * The dispatch on the first two letters of a command that has already
   * been trimmed and stripped of its '#'. Only a mutating outcome changes
   * anything, and then only the slot it names: `pg` stores an enabled rule
   * with hours in 0..23 and minutes in 0..59, `rm` empties the slot, `dt`
   * and `at` flip only its enabled flag.
   */
  function Dispatch(cmd: string, slots: seq<Programacao>, now: Moment): (res: (Outcome, seq<Programacao>))
    requires |slots| == MaxProgramacoes
    ensures |res.1| == MaxProgramacoes
    ensures !Mutating(res.0) ==> res.1 == slots
    ensures Mutating(res.0) ==> (InRange(res.0.slot - 1) &&
      forall j :: 0 <= j < MaxProgramacoes && j != res.0.slot - 1 ==> res.1[j] == slots[j])
    ensures res.0.Saved? ==> (var q := res.1[res.0.slot - 1];
      q.ativo && q.hIni <= 23 && q.mIni <= 59 && q.hFim <= 23 && q.mFim <= 59)
    ensures res.0.Removed? ==> res.1[res.0.slot - 1] == Empty
    ensures res.0.Disabled? ==> res.1[res.0.slot - 1] == slots[res.0.slot - 1].(ativo := false)
    ensures res.0.Enabled? ==> res.1[res.0.slot - 1] == slots[res.0.slot - 1].(ativo := true)
    ensures res.0.Status? ==> res.0.lines == StatusReport(slots, now)
    ensures res.0 != Ignored
  {
    if StartsWith(cmd, "pg") then InterpretPg(cmd, slots)
    else if StartsWith(cmd, "rm") then InterpretSlotOp(Remove, cmd, slots)
    else if StartsWith(cmd, "dt") then InterpretSlotOp(Disable, cmd, slots)
    else if StartsWith(cmd, "at") then InterpretSlotOp(Enable, cmd, slots)
    else if StartsWith(cmd, "hr") then (InterpretHr(cmd), slots)
    else if StartsWith(cmd, "st") then (Status(StatusReport(slots, now)), slots)
    else (ErrUnknown, slots)
  }

  /** A trimmed command: empty is ignored, otherwise one leading '#' is dropped before dispatch. */
  function FromTrimmed(t: string, slots: seq<Programacao>, now: Moment): (res: (Outcome, seq<Programacao>))
    requires |slots| == MaxProgramacoes
    ensures res.0 == Ignored <==> t == []
  {
    if t == [] then (Ignored, slots)
    else Dispatch(if t[0] == '#' then t[1..] else t, slots, now)
  }

  /**
   * `processaComando` on the slots alone: the outcome it reports and the
   * slots it leaves, for the raw command text. The outcome is `Ignored`
   * exactly when the command is all white space; the rest is `Dispatch`'s
   * contract.
   */
  function Interpret(cmdRaw: string, slots: seq<Programacao>, now: Moment): (res: (Outcome, seq<Programacao>))
    requires |slots| == MaxProgramacoes
    ensures res.0 == Ignored <==> Trim(cmdRaw) == []
    ensures res.0 == Ignored ==> res.1 == slots
    ensures res.0 != Ignored ==> (
      var t := Trim(cmdRaw);
      res == Dispatch(if t[0] == '#' then t[1..] else t, slots, now))
  {
    FromTrimmed(Trim(cmdRaw), slots, now)
  }

  // ---------------------------------------------------------------------
  // The interpreter as the code runs it

  /** The `pg` branch up to the save: find the comma, refuse a command without one, then store. */
  method RunPg(cmd: string, prog: Programador) returns (out: Outcome)
    requires StartsWith(cmd, "pg") && prog.Valid()
    modifies prog.progs
    ensures prog.Valid()
    ensures (out, prog.Slots()) == InterpretPg(cmd, old(prog.Slots()))
  {
    var sep := IndexOf(cmd, ',');
    IndexOfFirst(cmd, ',');
    if sep < 0 {
      PgFormatError(cmd, prog.Slots());
      return ErrPgFormat;
    }
    PgWithComma(cmd, prog.Slots());
    out := StorePg(cmd[2..sep], cmd[sep + 1..], prog);
  }

  /** The `pg` branch after the comma: check the slot number, parse the payload, store the rule enabled. */
  method StorePg(num: string, dados: string, prog: Programador) returns (out: Outcome)
    requires prog.Valid()
    modifies prog.progs
    ensures prog.Valid()
    ensures (out, prog.Slots()) == PgStore(num, dados, old(prog.Slots()))
  {
    var idx := SlotIndex(num);
    if idx < 0 || idx >= MaxProgramacoes {
      return ErrIdx;
    }
    var r := ParseProgramacao(dados, Empty);
    if r.None? {
      return ErrPgInvalid;
    }
    var p := r.value.(ativo := true);
    prog.SetProgramacao(idx, p);
    return Saved(idx + 1);
  }

  /** The `rm`, `dt` and `at` branches up to the save: check the slot number, apply the operation. */
  method RunSlotOp(op: SlotOp, cmd: string, prog: Programador) returns (out: Outcome)
    requires |cmd| >= 2 && prog.Valid()
    modifies prog.progs
    ensures prog.Valid()
    ensures (out, prog.Slots()) == InterpretSlotOp(op, cmd, old(prog.Slots()))
  {
    var idx := SlotIndex(cmd[2..]);
    if idx < 0 || idx >= MaxProgramacoes {
      return ErrIdx;
    }
    match op {
      case Remove => prog.Remover(idx);
      case Disable => prog.Desativar(idx);
      case Enable => prog.Ativar(idx);
    }
    return Report(op, idx + 1);
  }

  /** The `hr` branch: the five-field loop, then the clock setting. */
  method RunHr(cmd: string) returns (out: Outcome)
    requires |cmd| >= 2
    ensures out == InterpretHr(cmd)
  {
    var parts := SplitIntFields(cmd[2..], 5);
    if parts.None? {
      return ErrHrFormat;
    }
    var hh, mm, dd, mo, yy := parts.value[0], parts.value[1], parts.value[2], parts.value[3], parts.value[4];
    return ClockAdjusted(ClockSetting(yy, mo, dd, hh, mm, 0));
  }

  /**
   * The dispatch of `processaComando` on a command already trimmed and
   * stripped of its '#': each store-changing branch saves the store to the
   * EEPROM once it has changed it.
   */
  method DispatchCommand(cmd: string, prog: Programador, eeprom: array<uint8>, now: Moment)
    returns (out: Outcome)
    requires prog.Valid() && eeprom.Length >= ImageSize
    modifies prog.progs, eeprom
    ensures prog.Valid()
    ensures (out, prog.Slots()) == Dispatch(cmd, old(prog.Slots()), now)
    ensures Mutating(out) ==>
      eeprom[..ImageSize] == Image(prog.Slots()) && eeprom[ImageSize..] == old(eeprom[ImageSize..])
    ensures !Mutating(out) ==> eeprom[..] == old(eeprom[..])
  {
    if StartsWith(cmd, "pg") {
      out := RunPg(cmd, prog);
      if out.Saved? {
        SalvarProgramacoesEeprom(prog, eeprom);
      }
    } else if StartsWith(cmd, "rm") {
      out := RunSlotOp(Remove, cmd, prog);
      if out != ErrIdx {
        SalvarProgramacoesEeprom(prog, eeprom);
      }
    } else if StartsWith(cmd, "dt") {
      out := RunSlotOp(Disable, cmd, prog);
      if out != ErrIdx {
        SalvarProgramacoesEeprom(prog, eeprom);
      }
    } else if StartsWith(cmd, "at") {
      out := RunSlotOp(Enable, cmd, prog);
      if out != ErrIdx {
        SalvarProgramacoesEeprom(prog, eeprom);
      }
    } else if StartsWith(cmd, "hr") {
      out := RunHr(cmd);
    } else if StartsWith(cmd, "st") {
      var lines := StatusListing(prog, now);
      out := Status(lines);
    } else {
      out := ErrUnknown;
    }
  }

  /**
   * `processaComando`: does to the store what `Interpret` says, and after
   * every mutating command the first 121 EEPROM bytes hold the image of the
   * new store; every other command leaves the EEPROM alone.
   */
  method ProcessaComando(cmdRaw: string, prog: Programador, eeprom: array<uint8>, now: Moment)
    returns (out: Outcome)
    requires prog.Valid() && eeprom.Length >= ImageSize
    modifies prog.progs, eeprom
    ensures prog.Valid()
    ensures (out, prog.Slots()) == Interpret(cmdRaw, old(prog.Slots()), now)
    ensures Mutating(out) ==>
      eeprom[..ImageSize] == Image(prog.Slots()) && eeprom[ImageSize..] == old(eeprom[ImageSize..])
    ensures !Mutating(out) ==> eeprom[..] == old(eeprom[..])
  {
    var cmd := Trim(cmdRaw);
    if |cmd| == 0 {
      return Ignored;
    }
    if cmd[0] == '#' {
      cmd := cmd[1..];
    }
    assert Interpret(cmdRaw, old(prog.Slots()), now) == Dispatch(cmd, old(prog.Slots()), now);
    out := DispatchCommand(cmd, prog, eeprom, now);
  }
}

=== FILE: findings.dfy ===
/**
 * Two of the places where the code stores the `long` result of `toInt` in an
 * `int`, which is 16 bits wide on the AVR boards the sketch targets: the slot
 * index and the `pg` time fields. The rest of the model uses the unbounded
 * reading (`SlotIndex`, `ParseRule`); the members here model the code as
 * written and exhibit where the two part. The third place, the five `hr`
 * fields, is not modelled as written: `InterpretHr` carries them unbounded.
 */
module Findings {
  import opened ArduinoText
  import opened Schedule
  import opened CommandParsing
  import opened Commands

  /** A value stored into a 16-bit two's-complement `int`. */
  function Int16(x: int): (r: int)
    ensures -32768 <= r < 32768
    ensures (r - x) % 65536 == 0
    ensures -32768 <= x < 32768 ==> r == x
  {
    (x + 32768) % 65536 - 32768
  }

  /** `int idx = ... .toInt() - 1` as written: the index truncated to 16 bits. */
  function SlotIndexAsWritten(arg: string): (idx: int)
    ensures -32768 <= idx < 32768
    ensures -32767 <= ToInt(arg) <= 32768 ==> idx == SlotIndex(arg)
  {
    Int16(ToInt(arg) - 1)
  }

  /**
   * `#rm65537;` (likewise `pg`, `dt`, `at`): the written index lands on the
   * first slot, while the number names no slot and should be refused.
   */
  lemma SlotIndexWraps()
    ensures SlotIndexAsWritten(Decimal(65537)) == 0
    ensures InRange(SlotIndexAsWritten(Decimal(65537)))
    ensures !InRange(SlotIndex(Decimal(65537)))
  {
    SlotIndexOfDecimal(65537);
  }

  /** `parts[i] = f.toInt()` then `constrain` as written: the field truncated to 16 bits before clamping. */
  function FieldValueAsWritten(f: string, hi: int): (v: int)
    requires 0 <= hi
    ensures 0 <= v <= hi
    ensures -32768 <= ToInt(f) < 32768 ==> v == Clamp(ToInt(f), 0, hi)
  {
    Clamp(Int16(ToInt(f)), 0, hi)
  }

  /**
   * An hour field `65536` is stored as 0 and kept as hour 0, where the
   * clamp the code applies afterwards means it to become the last hour, 23.
   */
  lemma FieldValueWraps()
    ensures FieldValueAsWritten(Decimal(65536), 23) == 0
    ensures Clamp(ToInt(Decimal(65536)), 0, 23) == 23
  {
    ToIntDecimal(65536);
  }
}

=== FILE: persistence.dfy ===
/**
 * The EEPROM image of the schedule: a magic byte at address 0, then ten
 * 12-byte slot records from address 1 (seven day flags, the enabled flag,
 * start hour, start minute, end hour, end minute; flags as 0/1). The
 * on/off state is not stored.
 */
module Persistence {
  import opened Schedule

  const EepromMagic: uint8 := 0x42
  const EepromAddrMagic: nat := 0
  const EepromAddrData: nat := 1
  const SlotBytes: nat := 12

  /** The size of the whole image: 1 + 10 * 12 = 121 bytes. */
  const ImageSize: nat := EepromAddrData + MaxProgramacoes * SlotBytes

  /** A flag as the byte the code writes for it. */
  function FlagByte(b: bool): (x: uint8)
    ensures x == 0 || x == 1
    ensures (x != 0) == b
  {
    if b then 1 else 0
  }

  /** The seven day-flag bytes of a slot. */
  function DayBytes(dias: DayFlags): (r: seq<uint8>)
    ensures |r| == 7
    ensures forall d :: 0 <= d < 7 ==> r[d] == FlagByte(dias[d])
  {
    seq(7, d requires 0 <= d < 7 => FlagByte(dias[d]))
  }

  /** The 12-byte record of one slot. */
  function SlotRecord(p: Programacao): (r: seq<uint8>)
    ensures |r| == SlotBytes
    ensures forall k :: 0 <= k < 8 ==> r[k] == 0 || r[k] == 1
  {
    DayBytes(p.dias) + [FlagByte(p.ativo), p.hIni, p.mIni, p.hFim, p.mFim]
  }

  /** The records of the first `n` slots, one after the other, in slot order. */
  function EncodeSlots(slots: seq<Programacao>, n: nat): (r: seq<uint8>)
    requires n <= |slots|
    ensures |r| == SlotBytes * n
  {
    if n == 0 then [] else EncodeSlots(slots, n - 1) + SlotRecord(slots[n - 1])
  }

  /** The image the save routine leaves in the first `ImageSize` EEPROM bytes. */
  function Image(slots: seq<Programacao>): (r: seq<uint8>)
    requires |slots| == MaxProgramacoes
    ensures |r| == ImageSize
  {
    [EepromMagic] + EncodeSlots(slots, MaxProgramacoes)
  }

  /**
   * The slot a 12-byte record reads back as: any non-zero flag byte reads as
   * true. Writing that slot again gives the same record up to the flag
   * bytes, which come back as 0/1 with the same truth value.
   */
  function DecodeSlot(rec: seq<uint8>): (p: Programacao)
    requires |rec| == SlotBytes
    ensures forall k :: 0 <= k < 8 ==> (SlotRecord(p)[k] != 0 <==> rec[k] != 0)
    ensures SlotRecord(p)[8..] == rec[8..]
  {
    Programacao(seq(7, d requires 0 <= d < 7 => rec[d] != 0), rec[8], rec[9], rec[10], rec[11], rec[7] != 0)
  }

  /** The address of byte `k` of the record of slot `i`. */
  function SlotAddr(i: nat, k: nat): nat {
    EepromAddrData + SlotBytes * i + k
  }

  /** The ten slots the load routine rebuilds from an image with the right magic byte. */
  function DecodeImage(img: seq<uint8>): (r: seq<Programacao>)
    requires |img| >= ImageSize
    ensures |r| == MaxProgramacoes
  {
    seq(MaxProgramacoes, i requires 0 <= i < MaxProgramacoes => DecodeSlot(img[SlotAddr(i, 0)..SlotAddr(i, SlotBytes)]))
  }

  /** Slot `i`'s record sits at offset `12 * i` of the encoded slots. */
  lemma {:induction false} EncodeSlotsLayout(slots: seq<Programacao>, n: nat, i: nat)
    requires i < n <= |slots|
    ensures EncodeSlots(slots, n)[SlotBytes * i..SlotBytes * i + SlotBytes] == SlotRecord(slots[i])
  {
    assert EncodeSlots(slots, n) == EncodeSlots(slots, n - 1) + SlotRecord(slots[n - 1]);
    if i < n - 1 {
      EncodeSlotsLayout(slots, n - 1, i);
    }
  }

  /** The byte layout of the image: magic at address 0, byte `k` of slot `i` at address `1 + 12 * i + k`. */
  lemma ImageLayout(slots: seq<Programacao>, i: nat, k: nat)
    requires |slots| == MaxProgramacoes && i < MaxProgramacoes && k < SlotBytes
    ensures Image(slots)[EepromAddrMagic] == EepromMagic
    ensures Image(slots)[SlotAddr(i, k)] == SlotRecord(slots[i])[k]
  {
    EncodeSlotsLayout(slots, MaxProgramacoes, i);
    assert Image(slots)[SlotAddr(i, k)] == EncodeSlots(slots, MaxProgramacoes)[SlotBytes * i..SlotBytes * i + SlotBytes][k];
  }

  /** A record reads back as the slot it was written from. */
  lemma DecodeSlotRecord(p: Programacao)
    ensures DecodeSlot(SlotRecord(p)) == p
  {
    var q := DecodeSlot(SlotRecord(p));
    assert q.dias == p.dias;
  }

  /** Save then load: decoding the image of ten slots gives back exactly those slots. */
  lemma DecodeImageRoundTrip(slots: seq<Programacao>)
    requires |slots| == MaxProgramacoes
    ensures DecodeImage(Image(slots)) == slots
  {
    var img := Image(slots);
    forall i | 0 <= i < MaxProgramacoes
      ensures DecodeImage(img)[i] == slots[i]
    {
      EncodeSlotsLayout(slots, MaxProgramacoes, i);
      assert img[SlotAddr(i, 0)..SlotAddr(i, SlotBytes)] == EncodeSlots(slots, MaxProgramacoes)[SlotBytes * i..SlotBytes * i + SlotBytes];
      DecodeSlotRecord(slots[i]);
    }
  }

  /** Loading reads only the first `ImageSize` bytes: what follows the image does not matter. */
  lemma DecodePrefix(img: seq<uint8>)
    requires |img| >= ImageSize
    ensures DecodeImage(img) == DecodeImage(img[..ImageSize])
  {
    forall i | 0 <= i < MaxProgramacoes
      ensures DecodeImage(img)[i] == DecodeImage(img[..ImageSize])[i]
    {
      assert img[SlotAddr(i, 0)..SlotAddr(i, SlotBytes)] == img[..ImageSize][SlotAddr(i, 0)..SlotAddr(i, SlotBytes)];
    }
  }

  /** Writes the record of `p` at `addr .. addr + 12` and nothing else. */
  method WriteSlot(eeprom: array<uint8>, addr: nat, p: Programacao) returns (next: nat)
    requires addr + SlotBytes <= eeprom.Length
    modifies eeprom
    ensures next == addr + SlotBytes
    ensures eeprom[..addr] == old(eeprom[..addr])
    ensures eeprom[addr..next] == SlotRecord(p)
    ensures eeprom[next..] == old(eeprom[next..])
  {
    next := addr;
    for d := 0 to 7
      invariant next == addr + d
      invariant forall j :: 0 <= j < eeprom.Length && !(addr <= j < next) ==> eeprom[j] == old(eeprom[j])
      invariant forall j :: 0 <= j < d ==> eeprom[addr + j] == FlagByte(p.dias[j])
    {
      eeprom[next] := FlagByte(p.dias[d]);
      next := next + 1;
    }
    eeprom[next] := FlagByte(p.ativo);
    next := next + 1;
    eeprom[next] := p.hIni;
    next := next + 1;
    eeprom[next] := p.mIni;
    next := next + 1;
    eeprom[next] := p.hFim;
    next := next + 1;
    eeprom[next] := p.mFim;
    next := next + 1;
    assert eeprom[addr..next] == SlotRecord(p);
  }

  /** Writes the magic byte and the record of every slot; bytes past the image are untouched. */
  method SalvarProgramacoesEeprom(prog: Programador, eeprom: array<uint8>)
    requires prog.Valid() && eeprom.Length >= ImageSize
    modifies eeprom
    ensures eeprom[..ImageSize] == Image(prog.Slots())
    ensures eeprom[ImageSize..] == old(eeprom[ImageSize..])
  {
    eeprom[EepromAddrMagic] := EepromMagic;
    var addr := EepromAddrData;
    for i := 0 to MaxProgramacoes
      invariant addr == EepromAddrData + SlotBytes * i
      invariant eeprom[EepromAddrMagic] == EepromMagic
      invariant eeprom[EepromAddrData..addr] == EncodeSlots(prog.Slots(), i)
      invariant eeprom[addr..] == old(eeprom[addr..])
    {
      var p := prog.GetProgramacao(i);
      ghost var start := addr;
      ghost var done := eeprom[EepromAddrData..start];
      addr := WriteSlot(eeprom, addr, p);
      assert eeprom[EepromAddrData..start] == eeprom[..start][EepromAddrData..] == done;
      assert eeprom[EepromAddrData..addr] == eeprom[EepromAddrData..start] + eeprom[start..addr];
    }
    assert eeprom[..ImageSize] == [eeprom[0]] + eeprom[EepromAddrData..ImageSize];
  }

  /**
   * Leaves the store alone when address 0 does not hold the magic byte;
   * otherwise sets every slot from its record. The on/off state is not touched.
   */
  method CarregarProgramacoesEeprom(prog: Programador, eeprom: array<uint8>)
    requires prog.Valid() && eeprom.Length >= ImageSize
    modifies prog.progs
    ensures prog.Valid()
    ensures eeprom[EepromAddrMagic] != EepromMagic ==> prog.Slots() == old(prog.Slots())
    ensures eeprom[EepromAddrMagic] == EepromMagic ==> prog.Slots() == DecodeImage(eeprom[..ImageSize])
  {
    if eeprom[EepromAddrMagic] != EepromMagic {
      return;
    }
    var addr := EepromAddrData;
    for i := 0 to MaxProgramacoes
      invariant prog.Valid()
      invariant addr == SlotAddr(i, 0)
      invariant forall j :: 0 <= j < i ==> prog.progs[j] == DecodeImage(eeprom[..])[j]
    {
      var dias: seq<bool> := [];
      for d := 0 to 7
        invariant addr == SlotAddr(i, d)
        invariant |dias| == d
        invariant forall j :: 0 <= j < d ==> dias[j] == (eeprom[SlotAddr(i, j)] != 0)
      {
        dias := dias + [eeprom[addr] != 0];
        addr := addr + 1;
      }
      var ativo := eeprom[addr] != 0;
      addr := addr + 1;
      var hIni := eeprom[addr];
      addr := addr + 1;
      var mIni := eeprom[addr];
      addr := addr + 1;
      var hFim := eeprom[addr];
      addr := addr + 1;
      var mFim := eeprom[addr];
      addr := addr + 1;
      var p := Programacao(dias, hIni, mIni, hFim, mFim, ativo);
      assert p == DecodeImage(eeprom[..])[i];
      prog.SetProgramacao(i, p);
    }
    DecodePrefix(eeprom[..]);
  }

  /**
   * Saving one store and then loading into another leaves the second holding
   * exactly the slots of the first.
   */
  method SaveThenLoad(prog: Programador, other: Programador, eeprom: array<uint8>)
    requires prog.Valid() && other.Valid() && eeprom.Length >= ImageSize
    modifies eeprom, other.progs
    ensures other.Valid()
    ensures other.Slots() == old(prog.Slots())
  {
    ghost var saved := prog.Slots();
    SalvarProgramacoesEeprom(prog, eeprom);
    DecodeImageRoundTrip(saved);
    ImageLayout(saved, 0, 0);
    CarregarProgramacoesEeprom(other, eeprom);
  }
}

=== FILE: programador.dfy ===
/**
 * The schedule store: ten weekly time-window rules (`Programacao`) kept in a
 * fixed array inside a `Programador`, plus the last combined on/off state.
 */
module Schedule {

  /** The width of the C `uint8_t` fields. */
  type uint8 = x: int | 0 <= x < 256

  /** A weekday index, 0 = Sunday .. 6 = Saturday, as the day-flag array is indexed. */
  type Weekday = d: int | 0 <= d < 7

  /** The seven day flags, Sunday first. */
  type DayFlags = s: seq<bool> | |s| == 7 witness NoDays

  const NoDays: seq<bool> := [false, false, false, false, false, false, false]

  /** The number of slots in the store. */
  const MaxProgramacoes: nat := 10

  /** One rule slot: the days it applies to, its start and end time, and whether it is enabled. */
  datatype Programacao = Programacao(
    dias: DayFlags,
    hIni: uint8,
    mIni: uint8,
    hFim: uint8,
    mFim: uint8,
    ativo: bool)

  /** The canonical empty slot: no days, every time 0, disabled. */
  const Empty: Programacao := Programacao(NoDays, 0, 0, 0, 0, false)

  /**
   * A slot without data: all four time fields and all seven day flags are
   * zero, that is, the canonical empty slot up to its enabled flag.
   */
  predicate SlotVazio(p: Programacao)
    ensures SlotVazio(p) <==> p.(ativo := false) == Empty
  {
    p.hIni == 0 && p.mIni == 0 && p.hFim == 0 && p.mFim == 0 &&
    forall d :: 0 <= d < 7 ==> !p.dias[d]
  }

  /** Minutes since midnight of an hour and minute. */
  function MinuteOfDay(h: int, m: int): int {
    h * 60 + m
  }

  /**
   * The window test on minutes of the day: inclusive at both ends; a start
   * later than the end means the window runs past midnight.
   */
  predicate InWindow(agora: int, ini: int, fim: int)
    ensures agora == ini || agora == fim ==> InWindow(agora, ini, fim)
    ensures ini == fim ==> (InWindow(agora, ini, fim) <==> agora == ini)
  {
    if ini <= fim then ini <= agora && agora <= fim
    else agora >= ini || agora <= fim
  }

  /** Whether rule `p` switches the output on at weekday `dow`, `hora`:`minuto`. */
  predicate ProgAtivaAgora(p: Programacao, dow: Weekday, hora: int, minuto: int)
    ensures ProgAtivaAgora(p, dow, hora, minuto) ==> !SlotVazio(p) && p.ativo && p.dias[dow]
  {
    !SlotVazio(p) && p.ativo && p.dias[dow] &&
    InWindow(MinuteOfDay(hora, minuto), MinuteOfDay(p.hIni, p.mIni), MinuteOfDay(p.hFim, p.mFim))
  }

  /** A same-day window is active from its start to its end, both minutes included. */
  lemma SameDayWindow(p: Programacao, dow: Weekday, hora: int, minuto: int)
    requires !SlotVazio(p) && p.ativo && p.dias[dow]
    requires MinuteOfDay(p.hIni, p.mIni) <= MinuteOfDay(p.hFim, p.mFim)
    ensures ProgAtivaAgora(p, dow, hora, minuto) <==>
      MinuteOfDay(p.hIni, p.mIni) <= MinuteOfDay(hora, minuto) <= MinuteOfDay(p.hFim, p.mFim)
  {
  }

  /** A window whose start is after its end is active from the start to midnight and from midnight to the end. */
  lemma CrossMidnightWindow(p: Programacao, dow: Weekday, hora: int, minuto: int)
    requires !SlotVazio(p) && p.ativo && p.dias[dow]
    requires MinuteOfDay(p.hIni, p.mIni) > MinuteOfDay(p.hFim, p.mFim)
    requires 0 <= MinuteOfDay(hora, minuto) < 1440
    ensures ProgAtivaAgora(p, dow, hora, minuto) <==>
      (MinuteOfDay(p.hIni, p.mIni) <= MinuteOfDay(hora, minuto) < 1440 ||
       0 <= MinuteOfDay(hora, minuto) <= MinuteOfDay(p.hFim, p.mFim))
  {
  }

  /**
   * An independent reading of the window test for times within one day: the
   * minute `agora` is in the window when, walking forward round the clock from
   * the start, it is reached no later than the end is.
   */
  lemma InWindowIsForwardDistance(agora: int, ini: int, fim: int)
    requires 0 <= agora < 1440 && 0 <= ini < 1440 && 0 <= fim < 1440
    ensures InWindow(agora, ini, fim) <==> (agora - ini) % 1440 <= (fim - ini) % 1440
  {
    var a := agora - ini;
    var f := fim - ini;
    assert a % 1440 == if a >= 0 then a else a + 1440;
    assert f % 1440 == if f >= 0 then f else f + 1440;
  }

  /** A rule with data whose start and end are both 00:00 is active only at minute 0 of its days. */
  lemma MidnightOnlyRule(p: Programacao, dow: Weekday, hora: int, minuto: int)
    requires !SlotVazio(p) && p.ativo && p.dias[dow]
    requires p.hIni == 0 && p.mIni == 0 && p.hFim == 0 && p.mFim == 0
    ensures ProgAtivaAgora(p, dow, hora, minuto) <==> MinuteOfDay(hora, minuto) == 0
  {
  }

  /**
   * Whether any of `slots` is active at the given moment. A store whose slots
   * are all empty or disabled never switches the output on.
   */
  predicate AnyActive(slots: seq<Programacao>, dow: Weekday, hora: int, minuto: int)
    ensures (forall i :: 0 <= i < |slots| ==> SlotVazio(slots[i]) || !slots[i].ativo) ==>
      !AnyActive(slots, dow, hora, minuto)
  {
    exists i :: 0 <= i < |slots| && ProgAtivaAgora(slots[i], dow, hora, minuto)
  }

  /** The scheduler: its ten slots and the on/off state computed by the last `Atualizar`. */
  class Programador {
    const progs: array<Programacao>
    var estadoAtual: bool

    ghost predicate Valid()
      reads this
    {
      progs.Length == MaxProgramacoes
    }

    /** The slots, in order. */
    ghost function Slots(): (s: seq<Programacao>)
      reads this, progs
      requires Valid()
      ensures |s| == MaxProgramacoes
    {
      progs[..]
    }

    /** Every slot starts as the canonical empty rule and the output starts off. */
    constructor ()
      ensures Valid() && fresh(progs)
      ensures forall i :: 0 <= i < MaxProgramacoes ==> progs[i] == Empty
      ensures !estadoAtual
    {
      var a := new Programacao[MaxProgramacoes];
      for i := 0 to MaxProgramacoes
        invariant forall j :: 0 <= j < i ==> a[j] == Empty
      {
        a[i] := Empty;
      }
      progs := a;
      estadoAtual := false;
    }

    /** Replaces slot `idx` wholesale, enabled flag included; out of range it does nothing. */
    method SetProgramacao(idx: int, p: Programacao)
      requires Valid()
      modifies progs
      ensures Valid()
      ensures 0 <= idx < MaxProgramacoes ==> Slots() == old(Slots())[idx := p]
      ensures !(0 <= idx < MaxProgramacoes) ==> Slots() == old(Slots())
    {
      if idx < 0 || idx >= MaxProgramacoes {
        return;
      }
      progs[idx] := p;
    }

    /** Slot `idx`, or the canonical empty rule when `idx` is out of range. */
    function GetProgramacao(idx: int): (r: Programacao)
      reads this, progs
      requires Valid()
      ensures 0 <= idx < MaxProgramacoes ==> r == progs[idx]
      ensures !(0 <= idx < MaxProgramacoes) ==> SlotVazio(r) && !r.ativo
    {
      if idx < 0 || idx >= MaxProgramacoes then Empty else progs[idx]
    }

    /** Enables slot `idx`, keeping its days and times; out of range it does nothing. */
    method Ativar(idx: int)
      requires Valid()
      modifies progs
      ensures Valid()
      ensures 0 <= idx < MaxProgramacoes ==>
        Slots() == old(Slots())[idx := old(progs[idx]).(ativo := true)]
      ensures !(0 <= idx < MaxProgramacoes) ==> Slots() == old(Slots())
    {
      if idx < 0 || idx >= MaxProgramacoes {
        return;
      }
      progs[idx] := progs[idx].(ativo := true);
    }

    /** Disables slot `idx`, keeping its days and times; out of range it does nothing. */
    method Desativar(idx: int)
      requires Valid()
      modifies progs
      ensures Valid()
      ensures 0 <= idx < MaxProgramacoes ==>
        Slots() == old(Slots())[idx := old(progs[idx]).(ativo := false)]
      ensures !(0 <= idx < MaxProgramacoes) ==> Slots() == old(Slots())
    {
      if idx < 0 || idx >= MaxProgramacoes {
        return;
      }
      progs[idx] := progs[idx].(ativo := false);
    }

    /** Clears slot `idx` back to the canonical empty rule; out of range it does nothing. */
    method Remover(idx: int)
      requires Valid()
      modifies progs
      ensures Valid()
      ensures 0 <= idx < MaxProgramacoes ==> Slots() == old(Slots())[idx := Empty] && SlotVazio(progs[idx])
      ensures !(0 <= idx < MaxProgramacoes) ==> Slots() == old(Slots())
    {
      if idx < 0 || idx >= MaxProgramacoes {
        return;
      }
      progs[idx] := Empty;
    }

    /**
     * Recomputes the output as the OR of the window test over all slots,
     * stores it, and reports whether it differs from the stored one. The
     * slots are untouched, so a second call at the same moment reports no change.
     */
    method Atualizar(diaSemana: Weekday, hora: int, minuto: int) returns (mudou: bool)
      requires Valid()
      modifies this`estadoAtual
      ensures estadoAtual == AnyActive(Slots(), diaSemana, hora, minuto)
      ensures mudou == (estadoAtual != old(estadoAtual))
    {
      var novoEstado := false;
      var i := 0;
      while i < MaxProgramacoes
        invariant 0 <= i <= MaxProgramacoes
        invariant !novoEstado
        invariant forall j :: 0 <= j < i ==> !ProgAtivaAgora(progs[j], diaSemana, hora, minuto)
      {
        if ProgAtivaAgora(progs[i], diaSemana, hora, minuto) {
          novoEstado := true;
          break;
        }
        i := i + 1;
      }
      mudou := novoEstado != estadoAtual;
      estadoAtual := novoEstado;
    }

    /** The on/off state stored by the last `Atualizar` (the slot operations do not touch it). */
    function GetEstadoAtual(): (r: bool)
      reads this
      ensures r == estadoAtual
    {
      estadoAtual
    }
  }
}

=== FILE: serial.dfy ===
/**
 * Framing of serial input into commands: bytes collect in a buffer until a
 * ';' arrives, which hands the buffer to the command processor and starts
 * an empty one. Every other byte, including line ends and '#', is kept.
 */
module Serial {
  import opened ArduinoText
  import opened Schedule
  import opened Persistence
  import opened CommandParsing
  import opened Commands

  /** The byte that ends a command. */
  const Terminator: char := ';'

  /**
   * The framing of a character stream fed to a buffer holding `buf`: the
   * commands completed, in arrival order, and what is left in the buffer.
   */
  function Frames(buf: string, cs: string): (r: (seq<string>, string))
    ensures |r.0| == Count(cs)
    decreases |cs|
  {
    if cs == [] then ([], buf)
    else if cs[0] == Terminator then
      var rest := Frames([], cs[1..]);
      ([buf] + rest.0, rest.1)
    else Frames(buf + [cs[0]], cs[1..])
  }

  /** The number of terminators in `cs`. */
  function Count(cs: string): nat {
    if cs == [] then 0 else (if cs[0] == Terminator then 1 else 0) + Count(cs[1..])
  }

  /**
   * Framing is splitting at ';': starting from a buffer without ';', the
   * completed commands are all pieces of `buf + cs` but the last, and the
   * last piece is what stays buffered.
   */
  lemma {:induction false} FramesAreSplit(buf: string, cs: string)
    requires Lacks(buf, Terminator)
    ensures var pieces := Split(buf + cs, Terminator);
      Frames(buf, cs) == (pieces[..|pieces| - 1], pieces[|pieces| - 1])
    decreases |cs|
  {
    if cs == [] {
      assert buf + cs == buf;
      SplitNone(buf, Terminator);
    } else if cs[0] == Terminator {
      FramesAreSplit([], cs[1..]);
      assert buf + cs == buf + [Terminator] + cs[1..];
      SplitCons(buf, Terminator, cs[1..]);
      assert [] + cs[1..] == cs[1..];
      var tail := Split(cs[1..], Terminator);
      assert ([buf] + tail)[..|tail|] == [buf] + tail[..|tail| - 1];
    } else {
      assert Lacks(buf + [cs[0]], Terminator) by {
        forall k | 0 <= k < |buf| + 1 ensures (buf + [cs[0]])[k] != Terminator {
          if k < |buf| {
            assert (buf + [cs[0]])[k] == buf[k];
          }
        }
      }
      FramesAreSplit(buf + [cs[0]], cs[1..]);
      assert buf + [cs[0]] + cs[1..] == buf + cs;
    }
  }

  /** Without a terminator nothing is dispatched and every character is buffered in order. */
  lemma {:induction false} NoTerminatorAccumulates(buf: string, cs: string)
    requires Lacks(cs, Terminator)
    ensures Frames(buf, cs) == ([], buf + cs)
    decreases |cs|
  {
    if cs == [] {
      assert buf + cs == buf;
    } else {
      assert cs[0] != Terminator;
      assert Lacks(cs[1..], Terminator) by {
        forall k | 0 <= k < |cs| - 1 ensures cs[1..][k] != Terminator {
          assert cs[1..][k] == cs[k + 1];
        }
      }
      NoTerminatorAccumulates(buf + [cs[0]], cs[1..]);
      assert buf + [cs[0]] + cs[1..] == buf + cs;
    }
  }

  /** A terminator alone hands over the whole buffer and leaves it empty. */
  lemma TerminatorFlushes(buf: string)
    ensures Frames(buf, [Terminator]) == ([buf], [])
  {
    var cs := [Terminator];
    assert cs[0] == Terminator && cs[1..] == [];
    var rest := Frames([], cs[1..]);
    assert rest == ([], []);
    assert Frames(buf, cs) == ([buf] + rest.0, rest.1);
    assert [buf] + rest.0 == [buf];
  }

  /** Any other character is appended to the buffer and completes nothing. */
  lemma OtherAppends(buf: string, c: char)
    requires c != Terminator
    ensures Frames(buf, [c]) == ([], buf + [c])
  {
    assert [c][1..] == [];
    assert Frames(buf + [c], []) == ([], buf + [c]);
  }

  /** The receive buffer `cmdBuf`, kept between bytes. */
  class CommandBuffer {
    var cmdBuf: string

    /** The buffer starts empty. */
    constructor ()
      ensures cmdBuf == []
    {
      cmdBuf := [];
    }

    /**
     * `processaByteSerial`: on ';' runs the buffered text as a command and
     * empties the buffer; any other byte is appended and nothing else
     * changes. The buffer follows `Frames` one character at a time.
     */
    method ProcessaByteSerial(b: uint8, prog: Programador, eeprom: array<uint8>, now: Moment)
      returns (out: Option<Outcome>)
      requires prog.Valid() && eeprom.Length >= ImageSize
      modifies this, prog.progs, eeprom
      ensures prog.Valid()
      ensures (if out.Some? then [old(cmdBuf)] else [], cmdBuf) == Frames(old(cmdBuf), [b as char])
      ensures out.Some? ==>
        (out.value, prog.Slots()) == Interpret(old(cmdBuf), old(prog.Slots()), now)
      ensures out.Some? && Mutating(out.value) ==>
        eeprom[..ImageSize] == Image(prog.Slots()) && eeprom[ImageSize..] == old(eeprom[ImageSize..])
      ensures (out.None? || !Mutating(out.value)) ==> eeprom[..] == old(eeprom[..])
      ensures out.None? ==> prog.Slots() == old(prog.Slots())
    {
      if b as char == Terminator {
        TerminatorFlushes(cmdBuf);
        var o := ProcessaComando(cmdBuf, prog, eeprom, now);
        out := Some(o);
        cmdBuf := [];
      } else {
        OtherAppends(cmdBuf, b as char);
        cmdBuf := cmdBuf + [b as char];
        out := None;
      }
    }
  }
}
